=== FILE: README.md ===
# Point annotator and grid converter, modelled in Dafny

This project models the logic of a small Tk/PIL tool for clicking calibration
points on a set of camera images, and of the script that turns the resulting
points file into per-camera keypoint lists. The GUI and the image library are
stripped away. What remains is pure state transitions over integers and reals:

- the image set (`ImagesToAnnotate`): suffix filter, sort by name, the
  empty-directory error, the index check, output-file guards, per-image
  append-only point lists and the log rows;
- the navigator of `src/utils.py` (`ImageNavigator`, `ImageAnnotator`): drag to
  pan, zoom with a 0.1 s debounce and re-centring on the pixel under the cursor,
  the reset of the pan counter and level when an image loads, the conversion between screen, resized and
  original pixels, the annotated point and the cross marker it draws;
- the application of `src/main.py`: launch, the mouse bindings and the Next
  button, which saves the annotated image and then advances or quits;
- the older variant in `main.py` (`DraggerAndAnnotator`): a 0.3 zoom step, a
  0.4 s debounce, no re-centring, a pan that survives loading an image, integer
  (truncated) click coordinates, log rows with a 1-based camera index, and a Next
  button with no bound check;
- `convert.py`: the 30-point calibration grid with its origin moved to point 18,
  the points-file parser, the per-camera keypoint assembly and the camera loop.

Python semantics the code relies on are written out: `int()` of a float
truncates toward zero (`PyNum.Trunc`), list indexing accepts negative indices
(`PyNum.ListIndex`), `str(int)` and `int(str)` (`PyNum.IntText`,
`PyNum.ParseInt`), `str.split()` (`PyStr.Split`), `PurePath.suffix`
(`PyStr.Suffix`) and `<=` on strings (`ImageFiles.NameLe`). An exception raised
inside a Tk callback does not stop the main loop, so the legacy Next handler
returns its state together with the exception (`Legacy.Step`): what the handler
changed before raising stays changed.

The file system, the clock, the label prompt and Python's `float()` are
parameters: "directory exists" and "file exists" are booleans, the two clock
readings of a zoom (`now` before the debounce test, `doneAt` after the redraw)
are reals, the label is a string argument, and `float()` is a function
`string -> Option<real>` that the converter receives.

Modules, one per file: `Results`, `PyNum`, `PyStr`, `ImageFiles`,
`ImageCatalog` (the image list both `ImagesToAnnotate` classes share),
`ImagesToAnnotate`, `Pan`, `Navigator`, `Session`, `LegacyImagesToAnnotate`,
`Legacy`, `Convert`, and `Handoff`. `Handoff` proves that the converter reads
back, camera by camera, exactly the rows the legacy annotator logged, provided
every logged label is a single field that `int()` accepts and the converter's
`float()` reads each written integer coordinate back as that number. Labels are
free text typed at the prompt (`main.py:150`); a label such as "A" makes the
converter's `int()` of the id field raise (`convert.py:37`) when it reads that
camera.

The cross marker performs 20 pixel writes but colours 19 distinct pixels,
because the centre pixel is written by both loops; the model states both.

## Model

| member | source | states |
|---|---|---|
| PyNum.Trunc | src/utils.py:126-127 | `int()` of a float lies within one of it, on the side of zero: below it for non-negative values and above it for negative ones |
| PyNum.TruncIsNotFloor | main.py:145 | truncation and flooring differ on negative values: `int(-0.5)` is 0 where the floor is -1 |
| PyNum.ListIndex | src/utils.py:70 | a Python list index is valid exactly in [-n, n); a negative index counts from the end, and a non-negative valid index is used as is |
| PyNum.IntText | main.py:74 | the decimal text of an int is non-empty, starts with '-' exactly for negative values, and is otherwise ASCII digits |
| PyNum.ParseInt | convert.py:35-37 | `int()` of a field succeeds exactly on an optional sign followed by at least one ASCII digit; unsigned text gives a non-negative value |
| PyNum.NatTextValue | main.py:74 | the digits written for a natural number read back as that number |
| PyNum.IntTextRoundTrip | main.py:74 | `int(str(n)) == n` for every integer, so the integers the legacy log writes are read back unchanged |
| PyStr.WordLen | convert.py:29-30 | the leading run of non-whitespace ends at the first whitespace character or at the end of the string |
| PyStr.Split | convert.py:29-30 | every field `str.split()` returns is non-empty and free of whitespace; an all-whitespace line has no fields |
| PyStr.SplitWordThen | convert.py:29-30 | a word followed by whitespace or nothing is the first field of the split |
| PyStr.SplitJoinWords | convert.py:29-30 | splitting words joined by single spaces, followed by trailing whitespace such as the newline, returns exactly those words |
| PyStr.RFind | main.py:46 | the last occurrence of a character, or none when it does not occur |
| PyStr.Suffix | main.py:46 | a path suffix is empty or a dot-led tail of the name, at least two characters long, shorter than the name, with no further dot |
| PyStr.SuffixIs | main.py:46 | a name has a given dot-led extension as its suffix exactly when it ends with it and has something before it |
| ImageFiles.IsImageNameIff | src/utils.py:23 | a file is an image exactly when its name ends, case-sensitively, in ".jpg", ".png" or ".jpeg" with something before the dot |
| ImageFiles.NameLeTotal | src/utils.py:26 | any two names are ordered one way or the other by Python's string `<=` |
| ImageFiles.NameLeAntisymmetric | src/utils.py:26 | two names each `<=` the other are equal |
| ImageFiles.NameLeTransitive | src/utils.py:26 | string `<=` is transitive |
| ImageFiles.Insert | src/utils.py:26 | inserting a name into a sorted list keeps it sorted and adds exactly that name |
| ImageFiles.SortByName | src/utils.py:26 | sorting by name gives a sorted permutation of the input |
| ImageFiles.KeepImages | src/utils.py:23 | the suffix filter keeps each image name as often as the listing holds it and drops every other name |
| ImageFiles.ListImages | src/utils.py:23-26 | the image list is sorted by name and holds exactly the listing's image names, each with its multiplicity |
| ImageFiles.SortedUnique | src/utils.py:26 | two sorted lists with the same elements are equal |
| ImageFiles.ListImagesIsTheSortedListing | src/utils.py:23-26 | any sorted list holding exactly the accepted names is the image list, so the order is fully determined |
| ImageFiles.NoImagesIff | src/utils.py:31-32 | the image list is empty exactly when no entry has an image suffix |
| ImageCatalog.Slot | src/utils.py:70 | the list slot the stored index designates lies inside the image list |
| ImageCatalog.Build | src/utils.py:23-32 | construction fails with "no image files" exactly when no entry is an image; otherwise the list is the sorted image names, with one empty point list each and nothing loaded yet |
| ImageCatalog.LoadImgFromIdx | src/utils.py:61-67 | an index at or past the end raises the bound error, one below -count raises from the list access, and every other index, negative ones included, becomes the loaded index with nothing else changed |
| ImageCatalog.Append | src/utils.py:70 | the point is appended to the loaded image's list and every other list is unchanged |
| ImagesToAnnotate.SetupOutputFile | src/utils.py:43-59 | the output setup fails exactly when the directory exists and already holds points2D.txt; it creates the directory exactly when it is missing |
| ImagesToAnnotate.Create | src/utils.py:21-41 | the empty-set error comes before the output-file check; a new image set has the sorted image list, empty point lists, nothing loaded, and a log holding only the header `img_name point_label x y` |
| ImagesToAnnotate.LoadImgFromIdx | src/utils.py:61-67 | succeeds exactly for indices in [-count, count) and then only records the index; an index at or past the end raises the bound error |
| ImagesToAnnotate.SavePoint | src/utils.py:69-73 | the point joins only the loaded image's list and exactly one record naming that image, with the point's label and coordinates, is appended to the log |
| ImagesToAnnotate.SaveAll | src/utils.py:69-73 | saving points keeps the image list and the loaded index |
| ImagesToAnnotate.SaveAllAppends | src/utils.py:69-73 | N saves append N records for the loaded image in click order after the existing log, and extend only that image's point list |
| Pan.StartDrag | src/utils.py:140-143 | a press sets the drag flag and the start point and leaves the pan alone |
| Pan.StopDrag | src/utils.py:145-149 | a release adds (release - start) to the pan and clears the flag, whether or not a drag was in progress |
| Pan.DragTarget | src/utils.py:151-155 | motion drags the canvas to start-relative displacement plus pan while dragging and does nothing otherwise; it never changes the state |
| Pan.MotionPreviewsRelease | src/utils.py:145-155 | the position motion shows is the pan a release at the same point commits |
| Pan.DragsAccumulate | src/utils.py:140-149 | any sequence of press-release drags moves the pan by the sum of their displacements and ends with the flag cleared |
| Pan.TwoDragsAccumulate | src/utils.py:140-149 | two drags move the pan by the sum of their two displacements |
| Navigator.ToOriginal | src/utils.py:157-161 | the original coordinate times the zoom is the resized coordinate |
| Navigator.ToResized | src/utils.py:163-167 | the resized coordinate divided by a non-zero zoom is the original coordinate |
| Navigator.ConversionsInverse | src/utils.py:157-167 | the two conversions undo each other at any non-zero zoom |
| Navigator.Zoom | src/utils.py:169-191 | an event within 0.1 s of the last processed one changes nothing; otherwise the level steps by 0.5 within its bounds, the timestamp becomes the clock reading taken after the redraw, the drag state and index are kept, and the pan is set by truncation so that the pixel under the cursor lands at the canvas centre; with a clock that does not run backwards the timestamp changes exactly when the event is processed |
| Navigator.SlowRedrawExtendsDebounce | src/utils.py:172-191 | the debounce window is measured from the end of the last processed redraw: a scroll 0.55 s after a processed one whose redraw ended 0.05 s earlier is ignored |
| Navigator.ZoomCentresCursorPixel | src/utils.py:122-130 | after a processed zoom the original pixel that was under the cursor is displayed within one screen pixel of the canvas centre, whatever the level did |
| Navigator.ZoomDoesNotKeepPixelUnderCursor | src/utils.py:172-189 | zooming in at (100, 100) on an 800x600 canvas moves that pixel to (400, 300), and the cursor then points at original pixel (-100, -100) |
| Navigator.ZoomAtBoundStillRecentres | src/utils.py:178-189 | a zoom-in at level 5.0 keeps the level but still moves the pan |
| Navigator.OnZoomGridBounds | src/utils.py:178-182 | every level on the grid 0.5, 1.0, ..., 5.0 lies between 0.5 and 5.0 |
| Navigator.ZoomLevelStaysOnGrid | src/utils.py:178-182 | a scroll event keeps the level on the grid 0.5, 1.0, ..., 5.0 |
| Navigator.ResetPanAndZoom | src/utils.py:132-137 | loading sets the index, level 1.0 and pan counter (0, 0) and leaves the drag flag, drag start and timestamp alone |
| Navigator.LoadNewImg | src/utils.py:132-138 | the index is recorded first; the load succeeds exactly for indices in [-count, count) and only then resets the level to 1.0 and the pan counter to (0, 0); a failed load changes nothing else |
| Navigator.AnnotatedAt | src/utils.py:208-212 | the annotated point, unrounded, maps back exactly to the click under the tracked pan counter and zoom |
| Navigator.RowPixels | src/utils.py:227-228 | the horizontal stroke is the n pixels of one row starting at x0 |
| Navigator.ColumnPixels | src/utils.py:229-230 | the vertical stroke is the n pixels of one column starting at y0 |
| Navigator.MarkerWrites | src/utils.py:227-230 | the marker performs 20 writes: row pixels cx-5 .. cx+4, then column pixels cy-5 .. cy+4 |
| Navigator.MarkerPixels | src/utils.py:227-230 | the marker colours exactly the row cx-5 .. cx+4 and the column cy-5 .. cy+4 through the centre, 19 pixels in all |
| Navigator.MarkerWritesHitMarkerPixels | src/utils.py:227-230 | the 20 writes hit exactly the 19 marker pixels, so one pixel, the centre, is written twice |
| Navigator.Handle | src/utils.py:101-107 | a mouse event keeps the level on its grid and the loaded index; only a scroll changes the level or timestamp |
| Navigator.Run | src/utils.py:169-191 | from level 1.0, any sequence of mouse events keeps the level in {0.5, 1.0, ..., 5.0} |
| Session.Launch | src/main.py:17-18 | launch fails exactly when no entry is an image or the output file already exists; otherwise image 0 is loaded at level 1.0 with no pan and a header-only log |
| Session.Next | src/main.py:20-27 | Next always saves the current annotated image first; on the last image it quits and loads nothing; otherwise it loads the next index with level 1.0, pan counter (0, 0) and no marker drawn |
| Session.Click | src/utils.py:203-217 | a click appends one record naming the loaded image, with the label and the original coordinates that map back to the click under the tracked pan counter and zoom, extends only that image's point list, draws its marker, and leaves the view alone |
| Session.Handle | src/main.py:18-29 | every GUI event keeps the loaded index inside the list and equal to the image set's, and the level on its grid |
| Session.Run | src/main.py:20-27 | any sequence of events keeps the loaded index in [0, count-1], so the Next button never triggers the image set's bound error |
| Session.PressNextAdvances | src/main.py:20-27 | after k presses the index is min(start + k, count - 1), k images have been saved, and the loop has quit exactly when a press came on the last image |
| LegacyImagesToAnnotate.LineText | main.py:58-74 | the header and every row are written ending in a newline; a row is exactly one line of the file, with no line break before its end, exactly when its free-text label holds no '\n' or '\r' |
| LegacyImagesToAnnotate.RowLineBreaks | main.py:74 | the line breaks of a written row before its final newline are exactly those of its label, since the camera index and coordinates are decimal integers |
| LegacyImagesToAnnotate.LabelWithNewlineBreaksRow | main.py:74 | a point labelled "a\nb" is written across two lines of the file |
| LegacyImagesToAnnotate.LogText | main.py:71-74 | the log file holds one written text per entry, in order, and an entry is one line of the file exactly when it is the header or its label holds no line break |
| LegacyImagesToAnnotate.SetupOutputFile | main.py:43-61 | a name whose suffix is not ".txt" is rejected before any existence check; then the setup fails exactly when the parent exists and already holds the file |
| LegacyImagesToAnnotate.TxtCheckExamples | main.py:44-47 | "points2D.txt" passes the .txt check while "points2D.csv" and the suffix-less ".txt" do not |
| LegacyImagesToAnnotate.Create | main.py:23-41 | the empty-set error comes first, then the output checks, whose own error (the suffix error before the existence error) is the one raised; a new image set has the sorted image list, empty point lists, nothing loaded, and a header-only log |
| LegacyImagesToAnnotate.LoadImgFromIdx | main.py:63-69 | succeeds exactly for indices in [-count, count) and then only records the index; an index at or past the end raises the bound error |
| LegacyImagesToAnnotate.SavePoint | main.py:71-74 | the point joins only the loaded image's list and one row is appended with its label and integer coordinates, whose camera index is the 1-based position of a non-negative loaded index |
| Legacy.Zoom | main.py:169-182 | a zoom event changes only the level and the timestamp: the pan is never touched; within 0.4 s of the last processed event nothing changes; a processed event steps the level and stores the clock reading taken after the redraw |
| Legacy.OnZoomGridBounds | main.py:173-177 | every level on the grid 0.1, 0.4, ..., 3.1 lies between 0.1 and 3.1, so it is positive |
| Legacy.ZoomLevelStaysOnGrid | main.py:173-177 | a scroll event keeps the level on the grid 0.1, 0.4, ..., 3.1 |
| Legacy.AnnotatedAt | main.py:144-146 | the recorded coordinate is (event - pan) / zoom truncated toward zero |
| Legacy.AnnotationTruncatesTowardZero | main.py:144-146 | at level 1.3, one zoom-in step from 1.0, a click at x = -2 records -1, not the floor -2 |
| Legacy.LoadNewImg | main.py:115-120 | the index is recorded first; a successful load resets the level to 1.0 but keeps the pan and clears the drawn marker; a failed load changes nothing else |
| Legacy.DefaultOutputAccepted | main.py:44-47 | with no output name given only the existence checks can reject |
| Legacy.Launch | main.py:189-199 | launch fails exactly when no entry is an image or points2D.txt already exists; otherwise image 0 is loaded at level 1.0 with no pan |
| Legacy.Next | main.py:200-202 | Next saves the current image and loads the next one with no bound check; a successful load changes only the index, the level (to 1.0) and the loaded image, keeps the log and point lists, and clears the drawn marker; past the last image the load raises and leaves the index one past the end, and a further press fails before saving |
| Legacy.NextPastLastImage | main.py:200-202 | pressing Next on the last image saves it and raises the bound error; pressing again raises at the list access and changes nothing |
| Legacy.Click | main.py:139-164 | a click appends one row for the camera of the image loaded last, with the truncated coordinates, appends the point to that image's list only, keeps the loaded image, draws the marker there, and leaves the view alone |
| LegacyImagesToAnnotate.SavePointAtIndex | main.py:71-74 | with a non-negative stored index, saving grows exactly that position's point list by the point and leaves every other list unchanged |
| Legacy.HandleMouse | main.py:122-137 | mouse events keep the level on its grid and the loaded index; only a scroll changes the level |
| Legacy.Handle | main.py:94-103 | every GUI event keeps the state sane; mouse events never fail and never touch the image set |
| Legacy.Run | main.py:169-182 | any sequence of events, failing ones included, keeps the level in {0.1, 0.4, ..., 3.1}, so annotation never divides by zero |
| Legacy.DragsAccumulate | main.py:122-131 | two drags through the event handler move the pan by the sum of their displacements |
| Convert.BaseCoords | convert.py:8-11 | the base table is defined exactly on the ids 1..30 |
| Convert.PointsCoords | convert.py:12-17 | after the origin shift the table is defined on 1..30 and maps id i to (2 - (i-1) mod 5, (i-1) div 5 - 3) |
| Convert.OriginIsZero | convert.py:12-17 | point 18 maps to (0, 0) |
| Convert.PointsCoordsOnGrid | convert.py:8-17 | every id maps into [-2, 2] x [-3, 2], and the grid position determines the id |
| Convert.GridPositionHasPoint | convert.py:8-17 | every position of [-2, 2] x [-3, 2] is the image of some id, so the table is onto the grid |
| Convert.PointsCoordsInjective | convert.py:8-17 | no two ids share a grid position |
| Convert.ClassifyLine | convert.py:27-28 | line 0 is always skipped, whatever it holds |
| Convert.ClassifyLineSpec | convert.py:26-40 | an empty line fails on its first field, a comment is skipped before the field count is checked, a non-comment line without 4 fields raises, another camera's row is skipped, and a line is kept exactly when it is a well-formed row of this camera, as (id, x, y) |
| Convert.ClassifyLineFailures | convert.py:29-39 | a line after the header raises exactly when it is empty, or is not a comment and has a field count other than 4, a camera field `int()` rejects, or, on this camera's row, an id, x or y that does not parse; the exception names the first failing field |
| Convert.NonIntegerCameraRaises | convert.py:35 | the line "x 1 2 3" raises on its camera field whichever camera is being read, because the camera filter needs `int()` of that field |
| Convert.LoadKnown | convert.py:26-41 | when no line from some point on raises, reading from there yields the points of every kept line, each once and in file order |
| Convert.LoadFromOkIff | convert.py:23-41 | reading from a line on succeeds exactly when no later line raises |
| Convert.LoadFromFirstFailure | convert.py:23-41 | a failed read reports the exception of the first line that raises |
| Convert.LoadFromKeptLines | convert.py:23-41 | every point read comes from a line the loop keeps |
| Convert.LoadImgPoints | convert.py:23-41 | a successful read of a non-empty file yields fewer points than the file has lines, since the header line is never a point |
| Convert.LoadImgPointsSpec | convert.py:23-41 | reading a file succeeds exactly when no line after the first raises, a failure is the first raising line's exception, and a successful read is exactly the points of the kept lines, all of them, in file order |
| Convert.FirstLineIgnored | convert.py:27-28 | replacing the first line does not change the result |
| Convert.Keypoints | convert.py:52-59 | one 3D and one 2D keypoint per point, with z = 0.0 and third component 1.0; it fails exactly when some id is outside 1..30, at the first such id |
| Convert.ConvertCamera | convert.py:51-59 | one camera's pass succeeds exactly when its points read and all their ids are known; its exception is the reader's, or else the keypoint conversion's |
| Convert.ConvertFrom | convert.py:48-68 | cameras are processed in order, each file written only after all its points were converted; the run ends without an exception exactly when every remaining camera converts, and otherwise the camera after the last written one is the first that fails, with its exception |
| Convert.Convert | convert.py:43-68 | an existing output directory stops the script before anything is written; otherwise files for cameras 1, 2, ... are written in order, each the keypoints of that camera's points; all 8 are written without an exception exactly when every camera converts, and otherwise the first failing camera's exception ends the run |
| Handoff.RowFields | main.py:74 | a row the legacy annotator writes splits back into its camera index, label and two coordinates |
| Handoff.ClassifyRow | convert.py:29-40 | the converter keeps a written row, with its logged values, exactly when it belongs to the camera being read, and skips it otherwise |
| Handoff.ConverterReadsAnnotatorLog | convert.py:23-41 | reading the legacy annotator's points file for a camera yields exactly that camera's logged points in click order, provided the labels are integers and `float()` reads the written integer coordinates back |

## Left out

- Tk plumbing: event binding, `scan_dragto`, `create_image`, `winfo_width` and `winfo_height`, the window geometry and the main loop. Event coordinates, canvas size and the label are parameters.
- PIL: opening, resizing (LANCZOS), `PhotoImage`, the label text and saving images. A saved annotated image is modelled as its file name plus the set of marker pixels drawn since it was loaded.
- Session.Click: the label prompt's Cancel (a `None` label) is not modelled; the label is always a string.
- Legacy.Click: the same Cancel is not modelled; in `main.py` the marker pixels are written (lines 153-157) before `draw.text` fails on the `None` label (line 161), so such a click leaves a marker on the image and logs nothing, where the model always logs.
- Navigator.LoadNewImg: `load_new_img` (`src/utils.py:132-138`) zeroes the pan counter but redraws without `scan_dragto`, so the Tk canvas keeps the scroll origin of the last drag or zoom on the previous image. The model tracks only the counter: after a drag or zoom followed by Next, clicks made before the next drag or zoom are recorded relative to (0, 0) although the image is displayed shifted, and the recorded point need not lie under the cursor on screen.
- Session.Next: loads through `Navigator.LoadNewImg` and inherits the same gap between the reset pan counter and the canvas's unchanged scroll origin.
- Session.Click: PIL's pixel access counts a negative index from the far edge, as a Python list does, so a marker pixel down to minus the image size is drawn on the opposite side, and only an index at or past the size, or below minus the size, raises `IndexError`; image sizes are not modelled, so the model neither wraps nor raises and every marker is its unwrapped pixel set. In `src/utils.py` the marker is drawn (line 214) before `save_point` (line 217), so a click whose marker reaches past the right or bottom edge, within 4 pixels of it, raises before anything is logged; the model logs such a click.
- Legacy.Click: in `main.py` the marker is drawn before the point is saved, so a marker pixel at or past the image size, or below minus the size, would also prevent the save; image sizes are not modelled.
- File system: directory listing, `mkdir`, existence tests and file writes. Existence is a boolean input and the logs are sequences of rows.
- Wall clock: `time.time()` is two parameters of a scroll event, `now` for the reading before the debounce test and `doneAt` for the one after the redraw.
- Navigator.Zoom: "the timestamp changes exactly when the event is processed" is promised only when `now <= doneAt`; `time.time()` can step backwards, and a later reading equal to the stored timestamp would leave it unchanged.
- Legacy.Zoom: the same timestamp clause, under the same `now <= doneAt` condition.
- ImagesToAnnotate.SavePoint: the decimal text of the float coordinates (`repr`) is not modelled; a record carries the reals themselves.
- Convert.ClassifyLine: Python's `float()` is a parameter of the parser rather than a model of float parsing.
- Navigator.Zoom: division and multiplication by the zoom level are exact over the reals; Python's binary floating-point rounding is not modelled.
- Navigator.AnnotatedAt: the recorded point is the exact quotient; over binary floats the division can be off by a rounding error, so the point redisplays at the click only up to that error.
- Legacy.AnnotatedAt: `int()` truncates an exact quotient here; over binary floats a level off the exact grid can record one less, e.g. at level 1.9000000000000001 (reached by float steps where the grid has 1.9) a click 57 px from the pan gives 29 instead of 30, and at the level the float steps reach for 2.2 a click 33 px away gives 14 instead of 15.
- Legacy.OnZoomGrid: over binary floats repeated 0.3 steps drift from the exact grid, so the boundary comparisons with 0.2 and 3.0 could in principle differ; the grid is stated over the reals.
- Convert.Keypoints: the 3D keypoints are the grid coordinates; the multiplication by `TILE_LEN` (0.598) and the JSON output are not modelled.
- Convert.Convert: the points file arrives as its sequence of lines; reading it in text mode and the fixed file and directory names are not modelled.
- PyNum.ParseInt: `int()` also accepts underscores between digits, surrounding whitespace and non-ASCII digits; fields here come from `str.split()` and only ASCII digits and signs are modelled.
- PyStr.IsSpace: follows the code points `str.isspace()` treats as whitespace in current CPython; other Unicode versions may differ.
- PyStr.Suffix: follows `PurePath.suffix` of CPython 3.12, where a name ending in "." has no suffix; later versions differ only for such names, which neither the image filter nor the .txt check accepts.
- The logging calls, `print` and argument parsing, and the first image's resolution read in the constructors.
- `ImageAnnotator.__init__` and `DraggerAndAnnotator.__init__` creating the annotated-images directory: a file-system side effect with no bearing on the state.
- The `logger.info` call at `src/utils.py:38` uses the constructor's argument rather than `self.logger` and would fail for a missing logger; both launch functions pass one, so it is not modelled.
- Legacy.Launch: `main.py` always builds its image set with the default output name; an output name given as a plain string (which has no `.suffix`) is not reachable from launch and is not modelled.

=== FILE: catalog.dfy ===
/** The image list both ImagesToAnnotate classes keep: the sorted image names, one
    append-only point list per image, and the index of the image loaded last. */
module ImageCatalog {
  import opened Results
  import opened PyNum
  import opened ImageFiles

  datatype Catalog<P> = Catalog(paths: seq<string>, points: seq<seq<P>>, lastLoaded: Option<int>)

  /** What the constructor establishes: at least one image, one list per image. */
  predicate Valid<P>(c: Catalog<P>) {
    0 < |c.paths| && |c.points| == |c.paths|
  }

  /** An image has been loaded and its stored index reaches a slot of the list. */
  predicate Loaded<P>(c: Catalog<P>) {
    Valid(c) && c.lastLoaded.Some? && ListIndex(c.lastLoaded.value, |c.paths|).Some?
  }

  /** The list slot that `last_loaded_idx` designates (Python indexing, so a
      negative index counts from the end). */
  function Slot<P>(c: Catalog<P>): (k: nat)
    requires Loaded(c)
    ensures k < |c.paths|
  {
    ListIndex(c.lastLoaded.value, |c.paths|).value
  }

  /** The file name of the image loaded last. */
  function LoadedName<P>(c: Catalog<P>): string
    requires Loaded(c)
  {
    c.paths[Slot(c)]
  }

  /** The first half of the constructor: filter, sort, one empty point list per
      image, and the empty-directory error. */
  function Build<P>(listing: seq<string>): (r: Result<Catalog<P>>)
    ensures r.Err? <==> forall n :: n in listing ==> !IsImageName(n)
    ensures r.Err? ==> r.error == NoImageFiles
    ensures r.Ok? ==> Valid(r.value) && r.value.paths == ListImages(listing)
    ensures r.Ok? ==> r.value.lastLoaded == None
    ensures r.Ok? ==> forall k :: 0 <= k < |r.value.points| ==> r.value.points[k] == []
  {
    var paths := ListImages(listing);
    NoImagesIff(listing);
    if |paths| == 0 then Err(NoImageFiles)
    else Ok(Catalog(paths, seq(|paths|, _ => []), None))
  }

  /** load_img_from_idx: an index at or past the end raises; an index below -len
      raises from the list access; any other index, negative ones included, is
      recorded as the loaded one. */
  function LoadImgFromIdx<P>(c: Catalog<P>, idx: int): (r: Result<Catalog<P>>)
    ensures idx >= |c.paths| ==> r == Err(ImageIndexOutOfBounds(idx))
    ensures idx < -|c.paths| ==> r == Err(ListIndexError(idx))
    ensures r.Ok? <==> -|c.paths| <= idx < |c.paths|
    ensures r.Ok? ==> r.value.lastLoaded == Some(idx)
    ensures r.Ok? ==> r.value.paths == c.paths && r.value.points == c.points
  {
    if idx >= |c.paths| then Err(ImageIndexOutOfBounds(idx))
    else match ListIndex(idx, |c.paths|)
      case None => Err(ListIndexError(idx))
      case Some(_) => Ok(c.(lastLoaded := Some(idx)))
  }

  /** The in-memory half of save_point: append to the loaded image's list only. */
  function Append<P>(c: Catalog<P>, p: P): (r: Catalog<P>)
    requires Loaded(c)
    ensures Loaded(r) && r.paths == c.paths && r.lastLoaded == c.lastLoaded
    ensures r.points[Slot(c)] == c.points[Slot(c)] + [p]
    ensures forall k :: 0 <= k < |c.points| && k != Slot(c) ==> r.points[k] == c.points[k]
  {
    var k := Slot(c);
    c.(points := c.points[k := c.points[k] + [p]])
  }
}

=== FILE: convert.dfy ===
/** convert.py: the calibration-grid table, the points-file parser and the
    per-camera keypoint assembly. */
module Convert {
  import opened Results
  import opened PyNum
  import opened PyStr

  const OriginAtPoint: int := 18
  const CameraCount: nat := 8

  /** The ids of the calibration grid. */
  predicate IsPointId(i: int) {
    1 <= i <= 30
  }

  /** The grid before the origin shift: id i sits in column (i-1) mod 5, counted
      toward negative x, and row (i-1) div 5. Python's % and // agree with Dafny's
      here because i - 1 is never negative. */
  function BaseCoords(): (m: map<int, (int, int)>)
    ensures forall i :: i in m <==> IsPointId(i)
  {
    map i | 1 <= i <= 30 && IsPointId(i) :: (-((i - 1) % 5), (i - 1) / 5)
  }

  /** POINTS_COORDS after moving the origin to point 18. */
  function PointsCoords(): (m: map<int, (int, int)>)
    ensures forall i :: i in m <==> IsPointId(i)
    ensures forall i :: IsPointId(i) ==> m[i] == (2 - (i - 1) % 5, (i - 1) / 5 - 3)
  {
    var base := BaseCoords();
    var o := base[OriginAtPoint];
    assert o == (-2, 3);
    map id | id in base :: (base[id].0 - o.0, base[id].1 - o.1)
  }

  /** The id that sits at grid position (x, y) of the shifted table. */
  function PointIdAt(x: int, y: int): int {
    5 * (y + 3) + (2 - x) + 1
  }

  /** Point 18 is the origin of the shifted grid. */
  lemma OriginIsZero()
    ensures PointsCoords()[OriginAtPoint] == (0, 0)
  {
  }

  /** Every id lands on the grid [-2, 2] x [-3, 2], and PointIdAt recovers it. */
  lemma PointsCoordsOnGrid(i: int)
    requires IsPointId(i)
    ensures -2 <= PointsCoords()[i].0 <= 2 && -3 <= PointsCoords()[i].1 <= 2
    ensures PointIdAt(PointsCoords()[i].0, PointsCoords()[i].1) == i
  {
    var q, r := (i - 1) / 5, (i - 1) % 5;
    assert i - 1 == 5 * q + r && 0 <= r < 5;
    assert PointsCoords()[i] == (2 - r, q - 3);
  }

  /** Every grid position holds exactly the id PointIdAt names. */
  lemma GridPositionHasPoint(x: int, y: int)
    requires -2 <= x <= 2 && -3 <= y <= 2
    ensures IsPointId(PointIdAt(x, y)) && PointsCoords()[PointIdAt(x, y)] == (x, y)
  {
    var i := PointIdAt(x, y);
    assert i - 1 == 5 * (y + 3) + (2 - x);
    assert (i - 1) % 5 == 2 - x && (i - 1) / 5 == y + 3;
  }

  /** No two ids share a grid position. */
  lemma PointsCoordsInjective(i: int, j: int)
    requires IsPointId(i) && IsPointId(j) && i != j
    ensures PointsCoords()[i] != PointsCoords()[j]
  {
    PointsCoordsOnGrid(i);
    PointsCoordsOnGrid(j);
  }

  datatype CamPoint = CamPoint(pointId: int, x: real, y: real)

  /** What the loop body of load_img_points does with one line. */
  datatype LineVerdict = Skip | Keep(p: CamPoint) | Fail(e: Error)

  predicate IsComment(field: string) {
    0 < |field| && field[0] == '#'
  }

  /** The loop body of load_img_points on line number `lineNo`; `toFloat` stands
      for Python's float() (None for ValueError). Line 0 is always skipped; then a
      line whose first field starts with '#' is skipped before its fields are
      counted; a line with no fields fails at line[0]; any other count than 4
      raises; a first field naming another camera skips the line before the other
      fields are converted. */
  function ClassifyLine(cam: int, lineNo: nat, line: string, toFloat: string -> Option<real>): (v: LineVerdict)
    ensures lineNo == 0 ==> v == Skip
  {
    if lineNo == 0 then Skip
    else
      var f := Split(line);
      if |f| == 0 then Fail(EmptyLine(lineNo))
      else if IsComment(f[0]) then Skip
      else if |f| != 4 then Fail(FieldCount(lineNo))
      else match ParseInt(f[0])
        case None => Fail(NotAnInt(f[0]))
        case Some(c) =>
          if c != cam then Skip
          else match ParseInt(f[1])
            case None => Fail(NotAnInt(f[1]))
            case Some(id) =>
              match toFloat(f[2])
              case None => Fail(NotAFloat(f[2]))
              case Some(x) =>
                match toFloat(f[3])
                case None => Fail(NotAFloat(f[3]))
                case Some(y) => Keep(CamPoint(id, x, y))
  }

  /** The verdicts of ClassifyLine: the structural failures come before the
      camera filter, a comment is skipped before its fields are counted, and a line
      is kept exactly when it is a well-formed row of camera `cam`. */
  lemma ClassifyLineSpec(cam: int, lineNo: nat, line: string, toFloat: string -> Option<real>)
    ensures lineNo > 0 && |Split(line)| == 0 ==> ClassifyLine(cam, lineNo, line, toFloat) == Fail(EmptyLine(lineNo))
    ensures lineNo > 0 && |Split(line)| > 0 && IsComment(Split(line)[0]) ==> ClassifyLine(cam, lineNo, line, toFloat) == Skip
    ensures lineNo > 0 && |Split(line)| > 0 && !IsComment(Split(line)[0]) && |Split(line)| != 4 ==>
      ClassifyLine(cam, lineNo, line, toFloat) == Fail(FieldCount(lineNo))
    ensures ClassifyLine(cam, lineNo, line, toFloat).Keep? <==>
      && lineNo > 0 && |Split(line)| == 4 && !IsComment(Split(line)[0])
      && ParseInt(Split(line)[0]) == Some(cam)
      && ParseInt(Split(line)[1]).Some? && toFloat(Split(line)[2]).Some? && toFloat(Split(line)[3]).Some?
    ensures ClassifyLine(cam, lineNo, line, toFloat).Keep? ==>
      ClassifyLine(cam, lineNo, line, toFloat).p
        == CamPoint(ParseInt(Split(line)[1]).value, toFloat(Split(line)[2]).value, toFloat(Split(line)[3]).value)
    ensures (lineNo > 0 && |Split(line)| == 4 && !IsComment(Split(line)[0]) && ParseInt(Split(line)[0]).Some?
             && ParseInt(Split(line)[0]) != Some(cam)) ==> ClassifyLine(cam, lineNo, line, toFloat) == Skip
  {
  }

  /** When ClassifyLine raises, and with which exception: an empty line, a wrong
      field count, a camera field that is not an integer (whatever the camera), or,
      on a row of camera `cam`, the first of id, x and y that does not parse. */
  lemma ClassifyLineFailures(cam: int, lineNo: nat, line: string, toFloat: string -> Option<real>)
    ensures ClassifyLine(cam, lineNo, line, toFloat).Fail? <==>
      lineNo > 0 && (|Split(line)| == 0 || (!IsComment(Split(line)[0]) &&
        (|Split(line)| != 4 || ParseInt(Split(line)[0]).None? ||
         (ParseInt(Split(line)[0]) == Some(cam) &&
          (ParseInt(Split(line)[1]).None? || toFloat(Split(line)[2]).None? || toFloat(Split(line)[3]).None?)))))
    ensures lineNo > 0 && |Split(line)| == 4 && !IsComment(Split(line)[0]) && ParseInt(Split(line)[0]).None? ==>
      ClassifyLine(cam, lineNo, line, toFloat) == Fail(NotAnInt(Split(line)[0]))
    ensures lineNo > 0 && |Split(line)| == 4 && !IsComment(Split(line)[0]) && ParseInt(Split(line)[0]) == Some(cam) ==>
      && (ParseInt(Split(line)[1]).None? ==> ClassifyLine(cam, lineNo, line, toFloat) == Fail(NotAnInt(Split(line)[1])))
      && (ParseInt(Split(line)[1]).Some? && toFloat(Split(line)[2]).None? ==>
            ClassifyLine(cam, lineNo, line, toFloat) == Fail(NotAFloat(Split(line)[2])))
      && (ParseInt(Split(line)[1]).Some? && toFloat(Split(line)[2]).Some? && toFloat(Split(line)[3]).None? ==>
            ClassifyLine(cam, lineNo, line, toFloat) == Fail(NotAFloat(Split(line)[3])))
  {
  }

  lemma SplitSampleRow()
    ensures Split("x 1 2 3\n") == ["x", "1", "2", "3"]
  {
    var ws := ["x", "1", "2", "3"];
    JoinFour("x", "1", "2", "3");
    assert "x" + " " + "1" + " " + "2" + " " + "3" + "\n" == "x 1 2 3\n";
    assert AllSpace("\n") by {
      assert "\n"[0] == '\n';
    }
    assert IsWord(ws[0]) && IsWord(ws[1]) && IsWord(ws[2]) && IsWord(ws[3]) by {
      assert !IsSpace('x') && !IsSpace('1') && !IsSpace('2') && !IsSpace('3');
    }
    SplitJoinWords(ws, "\n");
  }

  /** A row whose camera field is not an integer raises, whichever camera is being
      read: int() of the camera field comes before the camera filter. */
  lemma NonIntegerCameraRaises(cam: int, toFloat: string -> Option<real>)
    ensures ClassifyLine(cam, 1, "x 1 2 3\n", toFloat) == Fail(NotAnInt("x"))
  {
    SplitSampleRow();
    assert ParseInt("x") == None by {
      assert !IsDigit('x');
    }
    ClassifyLineFailures(cam, 1, "x 1 2 3\n", toFloat);
  }

  /** load_img_points from line k on. */
  function LoadFrom(cam: int, lines: seq<string>, k: nat, toFloat: string -> Option<real>): (r: Result<seq<CamPoint>>)
    requires k <= |lines|
    ensures r.Ok? ==> |r.value| <= |lines| - k
    decreases |lines| - k
  {
    if k == |lines| then Ok([])
    else match ClassifyLine(cam, k, lines[k], toFloat)
      case Fail(e) => Err(e)
      case Skip => LoadFrom(cam, lines, k + 1, toFloat)
      case Keep(p) =>
        match LoadFrom(cam, lines, k + 1, toFloat)
        case Err(e) => Err(e)
        case Ok(ps) => Ok([p] + ps)
  }

  /** Reading from line k succeeds exactly when no line from k on raises. */
  lemma {:induction false} LoadFromOkIff(cam: int, lines: seq<string>, k: nat, toFloat: string -> Option<real>)
    requires k <= |lines|
    ensures LoadFrom(cam, lines, k, toFloat).Ok? <==>
      forall j :: k <= j < |lines| ==> !ClassifyLine(cam, j, lines[j], toFloat).Fail?
    decreases |lines| - k
  {
    if k < |lines| {
      LoadFromOkIff(cam, lines, k + 1, toFloat);
    }
  }

  /** A failed read reports the exception of the first line from k on that raises. */
  lemma {:induction false} LoadFromFirstFailure(cam: int, lines: seq<string>, k: nat, toFloat: string -> Option<real>)
    requires k <= |lines|
    requires LoadFrom(cam, lines, k, toFloat).Err?
    ensures exists j :: k <= j < |lines| && ClassifyLine(cam, j, lines[j], toFloat) == Fail(LoadFrom(cam, lines, k, toFloat).error)
                        && forall i :: k <= i < j ==> !ClassifyLine(cam, i, lines[i], toFloat).Fail?
    decreases |lines| - k
  {
    var r := LoadFrom(cam, lines, k, toFloat);
    var v := ClassifyLine(cam, k, lines[k], toFloat);
    if !v.Fail? {
      var rest := LoadFrom(cam, lines, k + 1, toFloat);
      assert rest.Err? && r.error == rest.error;
      LoadFromFirstFailure(cam, lines, k + 1, toFloat);
      var j :| k + 1 <= j < |lines| && ClassifyLine(cam, j, lines[j], toFloat) == Fail(rest.error)
               && forall i :: k + 1 <= i < j ==> !ClassifyLine(cam, i, lines[i], toFloat).Fail?;
      assert forall i :: k <= i < j ==> !ClassifyLine(cam, i, lines[i], toFloat).Fail?;
    }
  }

  /** Every point read from line k on comes from a line the loop keeps. */
  lemma {:induction false} LoadFromKeptLines(cam: int, lines: seq<string>, k: nat, toFloat: string -> Option<real>)
    requires k <= |lines|
    requires LoadFrom(cam, lines, k, toFloat).Ok?
    ensures forall p :: p in LoadFrom(cam, lines, k, toFloat).value ==>
      exists j :: k <= j < |lines| && ClassifyLine(cam, j, lines[j], toFloat) == Keep(p)
    decreases |lines| - k
  {
    if k < |lines| {
      LoadFromKeptLines(cam, lines, k + 1, toFloat);
    }
  }

  /** load_img_points over the lines of a file: the points of camera `cam` in file
      order, or the exception of the first line that raises. The header line is
      never read as a point. */
  function LoadImgPoints(cam: int, lines: seq<string>, toFloat: string -> Option<real>): (r: Result<seq<CamPoint>>)
    ensures r.Ok? && 0 < |lines| ==> |r.value| < |lines|
  {
    LoadFrom(cam, lines, 0, toFloat)
  }

  /** The points of the kept verdicts, in order. */
  function KeptPoints(vs: seq<LineVerdict>): (ps: seq<CamPoint>)
    ensures |ps| <= |vs|
    ensures forall p :: p in ps <==> Keep(p) in vs
  {
    if |vs| == 0 then []
    else (if vs[0].Keep? then [vs[0].p] else []) + KeptPoints(vs[1..])
  }

  /** ClassifyLine's verdict on every line of the file, header included. */
  function Verdicts(cam: int, lines: seq<string>, toFloat: string -> Option<real>): (vs: seq<LineVerdict>)
    ensures |vs| == |lines|
  {
    seq(|lines|, j requires 0 <= j < |lines| => ClassifyLine(cam, j, lines[j], toFloat))
  }

  /** Reading lines from k on, when none of them raises, yields the points of the
      kept ones, every one of them and in file order. */
  lemma {:induction false} LoadKnown(cam: int, lines: seq<string>, vs: seq<LineVerdict>, k: nat, toFloat: string -> Option<real>)
    requires k <= |lines| == |vs|
    requires forall j :: k <= j < |lines| ==> ClassifyLine(cam, j, lines[j], toFloat) == vs[j] && !vs[j].Fail?
    ensures LoadFrom(cam, lines, k, toFloat) == Ok(KeptPoints(vs[k..]))
    decreases |lines| - k
  {
    if k < |lines| {
      var tail := vs[k..];
      assert tail[0] == vs[k] && tail[1..] == vs[k + 1..];
      LoadKnown(cam, lines, vs, k + 1, toFloat);
      var rest := KeptPoints(vs[k + 1..]);
      assert ClassifyLine(cam, k, lines[k], toFloat) == vs[k] && !vs[k].Fail?;
      if vs[k].Keep? {
        assert KeptPoints(tail) == [vs[k].p] + rest;
        assert LoadFrom(cam, lines, k, toFloat) == Ok([vs[k].p] + rest);
      } else {
        assert KeptPoints(tail) == rest;
        assert LoadFrom(cam, lines, k, toFloat) == Ok(rest);
      }
    } else {
      assert vs[k..] == [];
    }
  }

  /** The whole-file form of the lemmas above: the header line is never a point, the
      read succeeds exactly when no later line raises, and then it holds every kept
      point in file order. */
  lemma LoadImgPointsSpec(cam: int, lines: seq<string>, toFloat: string -> Option<real>)
    ensures LoadImgPoints(cam, lines, toFloat).Ok? <==>
      forall j :: 1 <= j < |lines| ==> !ClassifyLine(cam, j, lines[j], toFloat).Fail?
    ensures LoadImgPoints(cam, lines, toFloat).Err? ==>
      exists j :: 1 <= j < |lines| && ClassifyLine(cam, j, lines[j], toFloat) == Fail(LoadImgPoints(cam, lines, toFloat).error)
                  && forall i :: 1 <= i < j ==> !ClassifyLine(cam, i, lines[i], toFloat).Fail?
    ensures LoadImgPoints(cam, lines, toFloat).Ok? ==> forall p :: p in LoadImgPoints(cam, lines, toFloat).value ==>
      exists j :: 1 <= j < |lines| && ClassifyLine(cam, j, lines[j], toFloat) == Keep(p)
    ensures LoadImgPoints(cam, lines, toFloat).Ok? ==>
      LoadImgPoints(cam, lines, toFloat).value == KeptPoints(Verdicts(cam, lines, toFloat))
  {
    LoadFromOkIff(cam, lines, 0, toFloat);
    if LoadImgPoints(cam, lines, toFloat).Err? {
      LoadFromFirstFailure(cam, lines, 0, toFloat);
    } else {
      LoadFromKeptLines(cam, lines, 0, toFloat);
      var vs := Verdicts(cam, lines, toFloat);
      forall j | 0 <= j < |lines|
        ensures ClassifyLine(cam, j, lines[j], toFloat) == vs[j] && !vs[j].Fail?
      {
        if j == 0 {
          assert ClassifyLine(cam, 0, lines[0], toFloat) == Skip;
        }
      }
      LoadKnown(cam, lines, vs, 0, toFloat);
      assert vs[0..] == vs;
    }
    if 0 < |lines| {
      assert ClassifyLine(cam, 0, lines[0], toFloat) == Skip;
    }
  }

  /** The first line never matters: it is skipped whatever it holds. */
  lemma FirstLineIgnored(cam: int, l0: string, l1: string, rest: seq<string>, toFloat: string -> Option<real>)
    ensures LoadImgPoints(cam, [l0] + rest, toFloat) == LoadImgPoints(cam, [l1] + rest, toFloat)
  {
    var a := [l0] + rest;
    var b := [l1] + rest;
    LoadFromSameTail(cam, a, b, 1, toFloat);
  }

  lemma {:induction false} LoadFromSameTail(cam: int, a: seq<string>, b: seq<string>, k: nat, toFloat: string -> Option<real>)
    requires k <= |a| == |b| && a[k..] == b[k..]
    ensures LoadFrom(cam, a, k, toFloat) == LoadFrom(cam, b, k, toFloat)
    decreases |a| - k
  {
    if k < |a| {
      assert a[k] == a[k..][0] == b[k..][0] == b[k];
      assert a[k + 1..] == a[k..][1..];
      assert b[k + 1..] == b[k..][1..];
      LoadFromSameTail(cam, a, b, k + 1, toFloat);
    }
  }

  datatype Keypoint3d = Keypoint3d(gridX: int, gridY: int, z: real)
  datatype Keypoint2d = Keypoint2d(x: real, y: real, w: real)
  datatype CameraFile = CameraFile(cam: int, keypoints3d: seq<Keypoint3d>, keypoints2d: seq<Keypoint2d>)

  /** The inner loop of the script for one camera: one 3D and one 2D keypoint per
      point, with z = 0.0 and third component 1.0; an id outside 1..30 raises at
      the first such point. */
  function Keypoints(cam: int, pts: seq<CamPoint>): (r: Result<CameraFile>)
    ensures r.Ok? <==> forall k :: 0 <= k < |pts| ==> IsPointId(pts[k].pointId)
    ensures r.Err? ==> exists k :: 0 <= k < |pts| && r.error == UnknownPointId(pts[k].pointId)
                               && !IsPointId(pts[k].pointId) && forall j :: 0 <= j < k ==> IsPointId(pts[j].pointId)
    ensures r.Ok? ==> r.value.cam == cam && |r.value.keypoints3d| == |pts| == |r.value.keypoints2d|
    ensures r.Ok? ==> forall k :: 0 <= k < |pts| ==>
      && r.value.keypoints3d[k] == Keypoint3d(PointsCoords()[pts[k].pointId].0, PointsCoords()[pts[k].pointId].1, 0.0)
      && r.value.keypoints2d[k] == Keypoint2d(pts[k].x, pts[k].y, 1.0)
    decreases |pts|
  {
    if |pts| == 0 then Ok(CameraFile(cam, [], []))
    else
      var coords := PointsCoords();
      var id := pts[0].pointId;
      if id !in coords then Err(UnknownPointId(id))
      else match Keypoints(cam, pts[1..])
        case Err(e) => Err(e)
        case Ok(f) =>
          Ok(CameraFile(cam, [Keypoint3d(coords[id].0, coords[id].1, 0.0)] + f.keypoints3d,
                             [Keypoint2d(pts[0].x, pts[0].y, 1.0)] + f.keypoints2d))
  }

  /** One camera's pass of the script: its points read from the file, then
      converted; the exception is the reader's or, failing that, the converter's. */
  function ConvertCamera(cam: int, lines: seq<string>, toFloat: string -> Option<real>): (r: Result<CameraFile>)
    ensures r.Ok? <==> LoadImgPoints(cam, lines, toFloat).Ok? && Keypoints(cam, LoadImgPoints(cam, lines, toFloat).value).Ok?
    ensures r.Ok? ==> r.value.cam == cam && Keypoints(cam, LoadImgPoints(cam, lines, toFloat).value) == r
    ensures LoadImgPoints(cam, lines, toFloat).Err? ==> r == Err(LoadImgPoints(cam, lines, toFloat).error)
    ensures LoadImgPoints(cam, lines, toFloat).Ok? ==> r == Keypoints(cam, LoadImgPoints(cam, lines, toFloat).value)
  {
    match LoadImgPoints(cam, lines, toFloat)
    case Err(e) => Err(e)
    case Ok(pts) => Keypoints(cam, pts)
  }

  /** The files the script has written, and the exception that stopped it. */
  datatype Outcome = Outcome(written: seq<CameraFile>, failure: Option<Error>)

  /** The camera loop from camera i + 1 on; a camera's file is written only after
      all of its points were converted, and the first failing camera ends the run
      with its exception. */
  function ConvertFrom(i: nat, lines: seq<string>, toFloat: string -> Option<real>): (o: Outcome)
    requires i <= CameraCount
    ensures |o.written| <= CameraCount - i
    ensures forall k :: 0 <= k < |o.written| ==>
      o.written[k].cam == i + k + 1 && ConvertCamera(i + k + 1, lines, toFloat) == Ok(o.written[k])
    ensures o.failure.None? <==> forall c :: i < c <= CameraCount ==> ConvertCamera(c, lines, toFloat).Ok?
    ensures o.failure.None? ==> |o.written| == CameraCount - i
    ensures o.failure.Some? ==>
      i + |o.written| < CameraCount && ConvertCamera(i + |o.written| + 1, lines, toFloat) == Err(o.failure.value)
    decreases CameraCount - i
  {
    if i == CameraCount then Outcome([], None)
    else match ConvertCamera(i + 1, lines, toFloat)
      case Err(e) => Outcome([], Some(e))
      case Ok(f) =>
        var rest := ConvertFrom(i + 1, lines, toFloat);
        var o := Outcome([f] + rest.written, rest.failure);
        assert forall k :: 1 <= k < |o.written| ==> o.written[k] == rest.written[k - 1];
        o
  }

  /** The script: refuse a pre-existing output directory, then cameras 1..8 in
      order, each reading the whole points file; it finishes without an exception
      exactly when every camera converts, and otherwise stops at the first camera
      that does not. */
  function Convert(outDirExists: bool, lines: seq<string>, toFloat: string -> Option<real>): (o: Outcome)
    ensures outDirExists ==> o == Outcome([], Some(OutputDirExists))
    ensures !outDirExists ==> forall k :: 0 <= k < |o.written| ==>
      o.written[k].cam == k + 1 && ConvertCamera(k + 1, lines, toFloat) == Ok(o.written[k])
    ensures !outDirExists ==>
      (o.failure.None? <==> forall c :: 0 < c <= CameraCount ==> ConvertCamera(c, lines, toFloat).Ok?)
    ensures !outDirExists && o.failure.None? ==> |o.written| == CameraCount
    ensures !outDirExists && o.failure.Some? ==>
      |o.written| < CameraCount && ConvertCamera(|o.written| + 1, lines, toFloat) == Err(o.failure.value)
  {
    if outDirExists then Outcome([], Some(OutputDirExists))
    else ConvertFrom(0, lines, toFloat)
  }
}

=== FILE: handoff.dfy ===
/** The points file written by the legacy annotator (main.py) is the input of
    convert.py. This module proves that the converter reads back, camera by
    camera, exactly the points the annotator logged. */
module Handoff {
  import opened Results
  import opened PyNum
  import opened PyStr
  import LegacyImagesToAnnotate
  import opened Convert

  type LogLine = LegacyImagesToAnnotate.LogLine

  /** A label the converter can read as a point id: a single field holding an
      integer. */
  predicate IdLabel(l: string) {
    IsWord(l) && ParseInt(l).Some?
  }

  /** A logged row the converter can read back: its label is an id and `toFloat`
      reads the written coordinates as the integers they are. */
  predicate Readable(l: LogLine, toFloat: string -> Option<real>) {
    && l.Record?
    && IdLabel(l.pointLabel)
    && toFloat(IntText(l.x)) == Some(l.x as real)
    && toFloat(IntText(l.y)) == Some(l.y as real)
  }

  /** The points of camera `cam` among the rows, in log order: a row counts when
      it is a point record of that camera whose label reads as an integer. */
  function Expected(cam: int, rows: seq<LogLine>): (ps: seq<CamPoint>)
    ensures |ps| <= |rows|
    ensures forall p :: p in ps <==>
      exists r :: r in rows && r.Record? && r.camIdx == cam && ParseInt(r.pointLabel) == Some(p.pointId)
                   && p.x == r.x as real && p.y == r.y as real
  {
    if |rows| == 0 then []
    else
      var r := rows[0];
      var here := if r.Record? && r.camIdx == cam then
          match ParseInt(r.pointLabel)
          case Some(id) => [CamPoint(id, r.x as real, r.y as real)]
          case None => []
        else [];
      here + Expected(cam, rows[1..])
  }

  lemma IntTextIsWord(n: int)
    ensures IsWord(IntText(n))
  {
    var s := IntText(n);
    forall i | 0 <= i < |s| ensures !IsSpace(s[i]) {
      assert IsDigit(s[i]) || s[i] == '-';
    }
  }

  /** A written row splits back into its four fields. */
  lemma RowFields(c: int, lbl: string, x: int, y: int)
    requires IsWord(lbl)
    ensures Split(LegacyImagesToAnnotate.LineText(LegacyImagesToAnnotate.Record(c, lbl, x, y)))
            == [IntText(c), lbl, IntText(x), IntText(y)]
  {
    var ws := [IntText(c), lbl, IntText(x), IntText(y)];
    IntTextIsWord(c);
    IntTextIsWord(x);
    IntTextIsWord(y);
    JoinFour(IntText(c), lbl, IntText(x), IntText(y));
    assert AllSpace("\n") by {
      assert "\n"[0] == '\n';
    }
    SplitJoinWords(ws, "\n");
  }

  /** The converter's verdict on one written row: kept with the logged values for
      its own camera, skipped for any other. */
  lemma ClassifyRow(cam: int, lineNo: nat, l: LogLine, toFloat: string -> Option<real>)
    requires lineNo > 0 && Readable(l, toFloat)
    ensures ClassifyLine(cam, lineNo, LegacyImagesToAnnotate.LineText(l), toFloat)
            == if l.camIdx == cam then Keep(CamPoint(ParseInt(l.pointLabel).value, l.x as real, l.y as real))
               else Skip
  {
    RowFields(l.camIdx, l.pointLabel, l.x, l.y);
    IntTextRoundTrip(l.camIdx);
    IntTextRoundTrip(l.x);
    IntTextRoundTrip(l.y);
    assert !IsComment(IntText(l.camIdx)) by {
      assert IsDigit(IntText(l.camIdx)[0]) || IntText(l.camIdx)[0] == '-';
    }
  }

  /** The converter's verdict on a logged row, read for camera `cam`. */
  function RowVerdict(cam: int, l: LogLine): LineVerdict {
    if l.Record? && l.camIdx == cam then
      match ParseInt(l.pointLabel)
      case Some(id) => Keep(CamPoint(id, l.x as real, l.y as real))
      case None => Skip
    else Skip
  }

  /** The verdicts of the logged rows keep exactly the expected points. */
  lemma {:induction false} KeptRows(cam: int, rows: seq<LogLine>)
    ensures KeptPoints(seq(|rows|, j requires 0 <= j < |rows| => RowVerdict(cam, rows[j]))) == Expected(cam, rows)
    decreases |rows|
  {
    var vs := seq(|rows|, j requires 0 <= j < |rows| => RowVerdict(cam, rows[j]));
    if |rows| > 0 {
      KeptRows(cam, rows[1..]);
      assert vs[1..] == seq(|rows[1..]|, j requires 0 <= j < |rows[1..]| => RowVerdict(cam, rows[1..][j]));
    }
  }

  /** Reading the annotator's points file for camera `cam` yields exactly that
      camera's logged points, in the order they were clicked, whatever the first
      line holds. */
  lemma ConverterReadsAnnotatorLog(cam: int, log: seq<LogLine>, toFloat: string -> Option<real>)
    requires 1 <= |log|
    requires forall j :: 1 <= j < |log| ==> Readable(log[j], toFloat)
    ensures LoadImgPoints(cam, LegacyImagesToAnnotate.LogText(log), toFloat) == Ok(Expected(cam, log[1..]))
  {
    var lines := LegacyImagesToAnnotate.LogText(log);
    var vs := seq(|log|, j requires 0 <= j < |log| => RowVerdict(cam, log[j]));
    forall j | 1 <= j < |lines|
      ensures ClassifyLine(cam, j, lines[j], toFloat) == vs[j] && !vs[j].Fail?
    {
      ClassifyRow(cam, j, log[j], toFloat);
    }
    LoadKnown(cam, lines, vs, 1, toFloat);
    KeptRows(cam, log[1..]);
    assert vs[1..] == seq(|log[1..]|, j requires 0 <= j < |log[1..]| => RowVerdict(cam, log[1..][j]));
    assert ClassifyLine(cam, 0, lines[0], toFloat) == Skip;
  }
}

=== FILE: imagefiles.dfy ===
/** Which directory entries count as images, and the order they are served in:
    both ImagesToAnnotate classes keep the entries whose suffix is exactly
    ".jpg", ".png" or ".jpeg" and sort them by name. */
module ImageFiles {
  import opened PyStr

  const ImageSuffixes: seq<string> := [".jpg", ".png", ".jpeg"]

  predicate IsImageName(name: string) {
    Suffix(name) in ImageSuffixes
  }

  /** The filter accepts exactly the names that end in one of the three extensions
      with something before the dot; the comparison is case-sensitive. */
  lemma IsImageNameIff(name: string)
    ensures IsImageName(name) <==>
      || (4 < |name| && EndsWith(name, ".jpg"))
      || (4 < |name| && EndsWith(name, ".png"))
      || (5 < |name| && EndsWith(name, ".jpeg"))
  {
    SuffixIs(name, ".jpg");
    SuffixIs(name, ".png");
    SuffixIs(name, ".jpeg");
  }

  /** Python's `<=` on str: lexicographic by code point, a prefix sorts first. */
  predicate NameLe(a: string, b: string)
    decreases |a|
  {
    |a| == 0 || (0 < |b| && (a[0] < b[0] || (a[0] == b[0] && NameLe(a[1..], b[1..]))))
  }

  lemma {:induction false} NameLeTotal(a: string, b: string)
    ensures NameLe(a, b) || NameLe(b, a)
    decreases |a|
  {
    if 0 < |a| && 0 < |b| && a[0] == b[0] {
      NameLeTotal(a[1..], b[1..]);
    }
  }

  lemma {:induction false} NameLeAntisymmetric(a: string, b: string)
    requires NameLe(a, b) && NameLe(b, a)
    ensures a == b
    decreases |a|
  {
    if 0 < |a| {
      NameLeAntisymmetric(a[1..], b[1..]);
      assert a == [a[0]] + a[1..] && b == [b[0]] + b[1..];
    }
  }

  lemma {:induction false} NameLeTransitive(a: string, b: string, c: string)
    requires NameLe(a, b) && NameLe(b, c)
    ensures NameLe(a, c)
    decreases |a|
  {
    if 0 < |a| && a[0] == b[0] && b[0] == c[0] {
      NameLeTransitive(a[1..], b[1..], c[1..]);
    }
  }

  predicate Sorted(s: seq<string>) {
    forall i, j :: 0 <= i < j < |s| ==> NameLe(s[i], s[j])
  }

  /** Inserts one name into a sorted list. */
  function Insert(x: string, s: seq<string>): (r: seq<string>)
    requires Sorted(s)
    ensures multiset(r) == multiset(s) + multiset{x}
    ensures Sorted(r)
    decreases |s|
  {
    if |s| == 0 then [x]
    else if NameLe(x, s[0]) then
      assert Sorted([x] + s) by {
        forall j | 0 <= j < |s| ensures NameLe(x, s[j]) {
          if j > 0 { NameLeTransitive(x, s[0], s[j]); }
        }
      }
      [x] + s
    else
      NameLeTotal(x, s[0]);
      assert s == [s[0]] + s[1..];
      var t := Insert(x, s[1..]);
      assert Sorted([s[0]] + t) by {
        forall k | 0 <= k < |t| ensures NameLe(s[0], t[k]) {
          assert t[k] in multiset(t);
          if t[k] != x {
            assert t[k] in multiset(s[1..]);
            var j :| 0 <= j < |s[1..]| && s[1..][j] == t[k];
            assert s[j + 1] == t[k];
          }
        }
      }
      [s[0]] + t
  }

  /** Python's list.sort(key=lambda p: p.name) on a list of names. */
  function SortByName(s: seq<string>): (r: seq<string>)
    ensures multiset(r) == multiset(s)
    ensures Sorted(r)
    decreases |s|
  {
    if |s| == 0 then []
    else
      assert s == [s[0]] + s[1..];
      Insert(s[0], SortByName(s[1..]))
  }

  /** The suffix filter over a directory listing, keeping the listing's order. */
  function KeepImages(names: seq<string>): (r: seq<string>)
    ensures forall n :: multiset(r)[n] == if IsImageName(n) then multiset(names)[n] else 0
    decreases |names|
  {
    if |names| == 0 then []
    else
      assert names == [names[0]] + names[1..];
      (if IsImageName(names[0]) then [names[0]] else []) + KeepImages(names[1..])
  }

  /** The image list of an ImagesToAnnotate built over a directory listing. */
  function ListImages(names: seq<string>): (r: seq<string>)
    ensures Sorted(r)
    ensures forall n :: multiset(r)[n] == if IsImageName(n) then multiset(names)[n] else 0
    ensures forall n :: n in r <==> n in names && IsImageName(n)
  {
    SortByName(KeepImages(names))
  }

  lemma {:induction false} SortedUnique(a: seq<string>, b: seq<string>)
    requires Sorted(a) && Sorted(b) && multiset(a) == multiset(b)
    ensures a == b
    decreases |a|
  {
    if |a| == 0 {
      assert |b| == |multiset(b)|;
    } else {
      assert a[0] in multiset(b);
      assert |b| > 0;
      assert b[0] in multiset(a);
      var i :| 0 <= i < |a| && a[i] == b[0];
      var j :| 0 <= j < |b| && b[j] == a[0];
      if i > 0 && j > 0 {
        NameLeAntisymmetric(a[0], b[0]);
      }
      assert a[0] == b[0];
      assert a == [a[0]] + a[1..] && b == [b[0]] + b[1..];
      assert multiset(a) == multiset{a[0]} + multiset(a[1..]);
      assert multiset(b) == multiset{a[0]} + multiset(b[1..]);
      forall n ensures multiset(a[1..])[n] == multiset(b[1..])[n] {
        assert multiset(a)[n] == multiset(b)[n];
      }
      assert multiset(a[1..]) == multiset(b[1..]);
      SortedUnique(a[1..], b[1..]);
    }
  }

  /** The image list is THE sorted arrangement of the accepted names: any sorted
      list holding each accepted name as often as the listing does equals it. */
  lemma ListImagesIsTheSortedListing(names: seq<string>, s: seq<string>)
    requires Sorted(s)
    requires forall n :: multiset(s)[n] == if IsImageName(n) then multiset(names)[n] else 0
    ensures s == ListImages(names)
  {
    var r := ListImages(names);
    assert multiset(s) == multiset(r);
    SortedUnique(s, r);
  }

  /** The image list is empty exactly when no entry has an image suffix. */
  lemma NoImagesIff(names: seq<string>)
    ensures |ListImages(names)| == 0 <==> forall n :: n in names ==> !IsImageName(n)
  {
    var r := ListImages(names);
    if |r| > 0 {
      assert r[0] in r;
    }
  }
}

=== FILE: imageset.dfy ===
/** ImagesToAnnotate of src/utils.py: the image list plus the points2D.txt log,
    whose rows name the image a point was clicked on. */
module ImagesToAnnotate {
  import opened Results
  import opened ImageFiles
  import opened ImageCatalog

  datatype AnnotatedPoint = AnnotatedPoint(x: real, y: real, pointLabel: string)

  /** A line of points2D.txt. The coordinates of a record are the point's floats;
      their decimal rendering is not modelled. */
  datatype LogLine =
    | Header(columns: seq<string>)
    | Record(imgName: string, pointLabel: string, x: real, y: real)

  const HeaderColumns: seq<string> := ["img_name", "point_label", "x", "y"]

  datatype ImageSet = ImageSet(catalog: Catalog<AnnotatedPoint>, log: seq<LogLine>, createdOutDir: bool)

  /** _setup_output_file for outdir/points2D.txt: a missing outdir is created; an
      existing outdir that already holds the file raises; otherwise the header is
      written. The result tells whether the directory was created. */
  function SetupOutputFile(outDirExists: bool, outFileExists: bool): (r: Result<bool>)
    ensures r.Err? <==> outDirExists && outFileExists
    ensures r.Err? ==> r.error == OutputFileExists
    ensures r.Ok? ==> r.value == !outDirExists
  {
    if !outDirExists then Ok(true)
    else if outFileExists then Err(OutputFileExists)
    else Ok(false)
  }

  /** The constructor over a directory listing; the empty-set check comes before
      the output-file check. */
  function Create(listing: seq<string>, outDirExists: bool, outFileExists: bool): (r: Result<ImageSet>)
    ensures (forall n :: n in listing ==> !IsImageName(n)) ==> r == Err(NoImageFiles)
    ensures (exists n :: n in listing && IsImageName(n)) ==>
      (r.Err? <==> outDirExists && outFileExists) && (r.Err? ==> r.error == OutputFileExists)
    ensures r.Ok? ==> Valid(r.value.catalog) && r.value.catalog.paths == ListImages(listing)
    ensures r.Ok? ==> r.value.catalog.lastLoaded == None
    ensures r.Ok? ==> forall k :: 0 <= k < |r.value.catalog.points| ==> r.value.catalog.points[k] == []
    ensures r.Ok? ==> r.value.log == [Header(HeaderColumns)] && r.value.createdOutDir == !outDirExists
  {
    match Build<AnnotatedPoint>(listing)
    case Err(e) => Err(e)
    case Ok(c) =>
      match SetupOutputFile(outDirExists, outFileExists)
      case Err(e) => Err(e)
      case Ok(created) => Ok(ImageSet(c, [Header(HeaderColumns)], created))
  }

  function LoadImgFromIdx(s: ImageSet, idx: int): (r: Result<ImageSet>)
    ensures r.Ok? <==> -|s.catalog.paths| <= idx < |s.catalog.paths|
    ensures idx >= |s.catalog.paths| ==> r == Err(ImageIndexOutOfBounds(idx))
    ensures r.Ok? ==> r.value == s.(catalog := s.catalog.(lastLoaded := Some(idx)))
  {
    match ImageCatalog.LoadImgFromIdx(s.catalog, idx)
    case Err(e) => Err(e)
    case Ok(c) => Ok(s.(catalog := c))
  }

  /** save_point: the point joins the loaded image's list, every other list is
      unchanged, and exactly one record naming that image is appended to the log. */
  function SavePoint(s: ImageSet, p: AnnotatedPoint): (r: ImageSet)
    requires Loaded(s.catalog)
    ensures Loaded(r.catalog) && r.catalog.paths == s.catalog.paths
    ensures r.catalog.lastLoaded == s.catalog.lastLoaded && r.createdOutDir == s.createdOutDir
    ensures r.catalog.points[Slot(s.catalog)] == s.catalog.points[Slot(s.catalog)] + [p]
    ensures forall k :: 0 <= k < |s.catalog.points| && k != Slot(s.catalog) ==>
      r.catalog.points[k] == s.catalog.points[k]
    ensures r.log == s.log + [Record(s.catalog.paths[Slot(s.catalog)], p.pointLabel, p.x, p.y)]
  {
    ImageSet(Append(s.catalog, p), s.log + [Record(LoadedName(s.catalog), p.pointLabel, p.x, p.y)], s.createdOutDir)
  }

  /** save_point called once per point, in order. */
  function SaveAll(s: ImageSet, ps: seq<AnnotatedPoint>): (r: ImageSet)
    requires Loaded(s.catalog)
    ensures Loaded(r.catalog) && r.catalog.paths == s.catalog.paths
    ensures r.catalog.lastLoaded == s.catalog.lastLoaded
    decreases |ps|
  {
    if |ps| == 0 then s else SaveAll(SavePoint(s, ps[0]), ps[1..])
  }

  /** The log records for points saved on the image called `name`. */
  function Records(name: string, ps: seq<AnnotatedPoint>): seq<LogLine> {
    seq(|ps|, k requires 0 <= k < |ps| => Record(name, ps[k].pointLabel, ps[k].x, ps[k].y))
  }

  /** N saves on the loaded image append N records for it, in order, after
      whatever the log held, and extend only that image's point list. */
  lemma {:induction false} SaveAllAppends(s: ImageSet, ps: seq<AnnotatedPoint>)
    requires Loaded(s.catalog)
    ensures SaveAll(s, ps).log == s.log + Records(LoadedName(s.catalog), ps)
    ensures |SaveAll(s, ps).log| == |s.log| + |ps|
    ensures SaveAll(s, ps).catalog.points[Slot(s.catalog)] == s.catalog.points[Slot(s.catalog)] + ps
    ensures forall k :: 0 <= k < |s.catalog.points| && k != Slot(s.catalog) ==>
      SaveAll(s, ps).catalog.points[k] == s.catalog.points[k]
    decreases |ps|
  {
    if |ps| > 0 {
      var s1 := SavePoint(s, ps[0]);
      SaveAllAppends(s1, ps[1..]);
      var name := LoadedName(s.catalog);
      assert Slot(s1.catalog) == Slot(s.catalog);
      assert Records(name, ps) == [Records(name, ps)[0]] + Records(name, ps[1..]);
      assert ps == [ps[0]] + ps[1..];
    }
  }
}

=== FILE: legacy.dfy ===
/** DraggerAndAnnotator and launch of main.py, the older variant of the tool:
    a 0.3 zoom step between 0.2 and 3.0, a 0.4 s debounce, no re-centring, a pan
    that survives loading the next image, integer annotated coordinates, and a
    Next button without a bound check. */
module Legacy {
  import opened Results
  import opened PyNum
  import opened ImageFiles
  import opened ImageCatalog
  import opened LegacyImagesToAnnotate
  import Pan
  import Navigator

  const ZoomStep: real := 0.3
  const ZoomOutAbove: real := 0.2
  const ZoomInBelow: real := 3.0
  const ZoomDebounce: real := 0.4

  datatype Nav = Nav(pan: Pan.PanState, zoom: real, lastZoomTs: real, loadedIdx: int)

  /** The newer navigator's level rule with this variant's step and bounds. */
  function ZoomLevelAfter(z: real, button: int): real {
    Navigator.StepLevel(z, button, ZoomStep, ZoomOutAbove, ZoomInBelow)
  }

  /** zoom: outside the debounce window the level steps and the image is redrawn;
      only the level and the timestamp change, the pan is never touched, and the
      cursor position plays no part. As in the newer navigator the timestamp kept
      is `doneAt`, the clock read again after the redraw. */
  function Zoom(n: Nav, button: int, now: real, doneAt: real): (r: Nav)
    ensures r.pan == n.pan && r.loadedIdx == n.loadedIdx
    ensures now - n.lastZoomTs <= ZoomDebounce ==> r == n
    ensures now <= doneAt ==> (r.lastZoomTs == n.lastZoomTs <==> now - n.lastZoomTs <= ZoomDebounce)
    ensures now - n.lastZoomTs > ZoomDebounce ==> r.lastZoomTs == doneAt && r.zoom == ZoomLevelAfter(n.zoom, button)
  {
    if now - n.lastZoomTs > ZoomDebounce then n.(zoom := ZoomLevelAfter(n.zoom, button), lastZoomTs := doneAt)
    else n
  }

  /** The levels reachable from 1.0 over the reals: 0.1, 0.4, ..., 3.1. */
  function Level(k: int): real {
    1.0 + k as real * ZoomStep
  }

  predicate OnZoomGrid(z: real) {
    exists k :: -3 <= k <= 7 && z == Level(k)
  }

  lemma OnZoomGridBounds(z: real)
    requires OnZoomGrid(z)
    ensures 0.1 <= z <= 3.1
  {
  }

  /** A scroll event keeps the level on the grid: down only from above 0.2 (so
      never below 0.1), up only from below 3.0 (so never above 3.1). */
  lemma ZoomLevelStaysOnGrid(z: real, button: int)
    requires OnZoomGrid(z)
    ensures OnZoomGrid(ZoomLevelAfter(z, button))
  {
    var k :| -3 <= k <= 7 && z == Level(k);
    var z2 := ZoomLevelAfter(z, button);
    if z2 == z - ZoomStep {
      assert z2 == Level(k - 1);
    } else if z2 == z + ZoomStep {
      assert z2 == Level(k + 1);
    }
  }

  /** The point annotate_point records: `int()` of (event - pan) / zoom, so the
      original coordinate truncated toward zero. */
  function AnnotatedAt(n: Nav, x: int, y: int, pointLabel: string): (p: Point)
    requires n.zoom != 0.0
    ensures p.pointLabel == pointLabel
    ensures var v := (x - n.pan.accumX) as real / n.zoom;
      (v >= 0.0 ==> p.x as real <= v < p.x as real + 1.0) && (v < 0.0 ==> p.x as real - 1.0 < v <= p.x as real)
    ensures var v := (y - n.pan.accumY) as real / n.zoom;
      (v >= 0.0 ==> p.y as real <= v < p.y as real + 1.0) && (v < 0.0 ==> p.y as real - 1.0 < v <= p.y as real)
  {
    Point(Trunc((x - n.pan.accumX) as real / n.zoom), Trunc((y - n.pan.accumY) as real / n.zoom), pointLabel)
  }

  /** A click left of the image at level 1.3, one zoom-in step from 1.0, records -1
      (-2 / 1.3 is about -1.54), where flooring would give -2. */
  lemma AnnotationTruncatesTowardZero()
    ensures OnZoomGrid(1.3)
    ensures AnnotatedAt(Nav(Pan.Initial, 1.3, 0.0, 0), -2, 3, "p").x == -1
    ensures AnnotatedAt(Nav(Pan.Initial, 1.3, 0.0, 0), -2, 3, "p").y == 2
  {
    assert 1.3 == Level(1);
  }

  datatype App = App(
    images: ImageSet,
    nav: Nav,
    marked: set<(int, int)>,                // marker pixels drawn on the displayed image
    saved: seq<Navigator.SavedImage>)       // annotated images written, in order

  /** An event's resulting state together with the exception it raised, if any;
      Tk reports a callback's exception and keeps running, so what the handler
      changed before raising stays changed. */
  datatype Step = Step(app: App, failure: Option<Error>)

  /** What holds between events. The navigator's index may run one past the end:
      Next on the last image records it before the load fails. */
  predicate Sane(a: App) {
    && ImageCatalog.Valid(a.images.catalog)
    && a.images.catalog.lastLoaded.Some?
    && 0 <= a.images.catalog.lastLoaded.value < |a.images.catalog.paths|
    && 0 <= a.nav.loadedIdx <= |a.images.catalog.paths|
    && OnZoomGrid(a.nav.zoom)
  }

  /** load_new_img: the index is recorded first; a successful load resets the
      level to 1.0 but keeps the pan and the drag state. */
  function LoadNewImg(a: App, idx: int): (r: Step)
    ensures r.app.nav.loadedIdx == idx && r.app.saved == a.saved
    ensures r.failure.None? <==> -|a.images.catalog.paths| <= idx < |a.images.catalog.paths|
    ensures idx >= |a.images.catalog.paths| ==> r.failure == Some(ImageIndexOutOfBounds(idx))
    ensures r.failure.Some? ==> r.app == a.(nav := a.nav.(loadedIdx := idx))
    ensures r.failure.None? ==>
      && r.app.nav == a.nav.(loadedIdx := idx, zoom := 1.0)
      && r.app.images == a.images.(catalog := a.images.catalog.(lastLoaded := Some(idx)))
      && r.app.marked == {}
  {
    var n := a.nav.(loadedIdx := idx);
    match LegacyImagesToAnnotate.LoadImgFromIdx(a.images, idx)
    case Err(e) => Step(a.(nav := n), Some(e))
    case Ok(s) => Step(App(s, n.(zoom := 1.0), {}, a.saved), None)
  }

  /** With no output name given, only the existence checks can reject. */
  lemma DefaultOutputAccepted(parentExists: bool, fileExists: bool)
    ensures SetupOutputFile(None, parentExists, fileExists).Err? <==> parentExists && fileExists
  {
    TxtCheckExamples();
  }

  /** launch: the image set with the default output name, then the annotator,
      which loads image 0. The default file lives in the working directory, which
      exists, so only whether points2D.txt is already there matters. */
  function Launch(listing: seq<string>, fileExists: bool, now: real): (r: Result<App>)
    ensures r.Err? <==> (forall n :: n in listing ==> !IsImageName(n)) || fileExists
    ensures r.Ok? ==> Sane(r.value) && r.value.nav == Nav(Pan.Initial, 1.0, now, 0)
    ensures r.Ok? ==> r.value.images.catalog.paths == ListImages(listing) && r.value.images.log == [Header]
    ensures r.Ok? ==> r.value.images.catalog.lastLoaded == Some(0) && r.value.saved == []
  {
    DefaultOutputAccepted(true, fileExists);
    match Create(listing, None, true, fileExists)
    case Err(e) => Err(e)
    case Ok(s) =>
      var a := App(s, Nav(Pan.Initial, 1.0, now, 0), {}, []);
      var l := LoadNewImg(a, 0);
      match l.failure
      case Some(e) => Err(e)
      case None =>
        assert OnZoomGrid(1.0) by { assert 1.0 == Level(0); }
        Ok(l.app)
  }

  /** show_next_img_on_canvas: save the image under the navigator's index, then
      load the next one with no bound check. Past the last image the load raises
      and leaves the index one past the end; the next press then fails already
      in save_annotated_img and changes nothing. */
  function Next(a: App): (r: Step)
    requires Sane(a)
    ensures Sane(r.app)
    ensures a.nav.loadedIdx + 1 < |a.images.catalog.paths| ==>
      && r.failure.None?
      && r.app.nav == a.nav.(loadedIdx := a.nav.loadedIdx + 1, zoom := 1.0)
      && r.app.images == a.images.(catalog := a.images.catalog.(lastLoaded := Some(a.nav.loadedIdx + 1)))
      && r.app.marked == {}
      && r.app.saved == a.saved + [Navigator.SavedImage(a.images.catalog.paths[a.nav.loadedIdx], a.marked)]
    ensures a.nav.loadedIdx + 1 == |a.images.catalog.paths| ==>
      && r.failure == Some(ImageIndexOutOfBounds(|a.images.catalog.paths|))
      && r.app == a.(nav := a.nav.(loadedIdx := |a.images.catalog.paths|),
                     saved := a.saved + [Navigator.SavedImage(a.images.catalog.paths[a.nav.loadedIdx], a.marked)])
    ensures a.nav.loadedIdx == |a.images.catalog.paths| ==>
      r.failure == Some(ListIndexError(a.nav.loadedIdx)) && r.app == a
  {
    match ListIndex(a.nav.loadedIdx, |a.images.catalog.paths|)
    case None => Step(a, Some(ListIndexError(a.nav.loadedIdx)))
    case Some(k) =>
      var a1 := a.(saved := a.saved + [Navigator.SavedImage(a.images.catalog.paths[k], a.marked)]);
      var l := LoadNewImg(a1, a.nav.loadedIdx + 1);
      assert OnZoomGrid(1.0) by { assert 1.0 == Level(0); }
      l
  }

  /** Pressing Next on the last image and then once more: the first press saves
      the image and fails to load, the second fails before saving anything. */
  lemma NextPastLastImage(a: App)
    requires Sane(a) && a.nav.loadedIdx == |a.images.catalog.paths| - 1
    ensures var r1 := Next(a);
      && r1.failure == Some(ImageIndexOutOfBounds(|a.images.catalog.paths|))
      && |r1.app.saved| == |a.saved| + 1
      && var r2 := Next(r1.app);
         r2.failure == Some(ListIndexError(|a.images.catalog.paths|)) && r2.app == r1.app
  {
  }

  /** annotate_point: the truncated point is saved for the image the image set
      loaded last, and to that image's point list only; its marker is drawn, and
      the view and the loaded image do not change. */
  function Click(a: App, x: int, y: int, pointLabel: string): (r: App)
    requires Sane(a)
    ensures Sane(r) && r.nav == a.nav && r.saved == a.saved
    ensures r.images.catalog.paths == a.images.catalog.paths
    ensures |r.images.log| == |a.images.log| + 1 && r.images.log[..|a.images.log|] == a.images.log
    ensures var rec := r.images.log[|a.images.log|];
      && rec.Record?
      && rec.camIdx == a.images.catalog.lastLoaded.value + 1
      && rec.pointLabel == pointLabel
      && rec == Record(rec.camIdx, pointLabel, AnnotatedAt(a.nav, x, y, pointLabel).x, AnnotatedAt(a.nav, x, y, pointLabel).y)
      && r.marked == a.marked + Navigator.MarkerPixels(rec.x, rec.y)
      && r.images.catalog.points[a.images.catalog.lastLoaded.value]
         == a.images.catalog.points[a.images.catalog.lastLoaded.value] + [Point(rec.x, rec.y, pointLabel)]
    ensures r.images.catalog.lastLoaded == a.images.catalog.lastLoaded
    ensures r.images.createdOutDir == a.images.createdOutDir
    ensures forall k :: 0 <= k < |a.images.catalog.points| && k != a.images.catalog.lastLoaded.value ==>
      r.images.catalog.points[k] == a.images.catalog.points[k]
  {
    OnZoomGridBounds(a.nav.zoom);
    var p := AnnotatedAt(a.nav, x, y, pointLabel);
    SavePointAtIndex(a.images, p);
    var s := SavePoint(a.images, p);
    a.(images := s, marked := a.marked + Navigator.MarkerPixels(p.x, p.y))
  }

  datatype UiEvent =
    | Mouse(e: Navigator.MouseEvent)
    | Annotate(x: int, y: int, pointLabel: string)
    | NextPressed

  /** A mouse event; press, motion and release act on the pan exactly as in the
      newer navigator. */
  function HandleMouse(n: Nav, m: Navigator.MouseEvent): (r: Nav)
    requires OnZoomGrid(n.zoom)
    ensures OnZoomGrid(r.zoom) && r.loadedIdx == n.loadedIdx
    ensures !m.Scroll? ==> r.zoom == n.zoom
  {
    match m
    case Press(x, y) => n.(pan := Pan.StartDrag(n.pan, x, y))
    case Motion(_, _) => n
    case Release(x, y) => n.(pan := Pan.StopDrag(n.pan, x, y))
    case Scroll(b, _, _, now, doneAt, _, _) =>
      ZoomLevelStaysOnGrid(n.zoom, b);
      Zoom(n, b, now, doneAt)
  }

  function Handle(a: App, e: UiEvent): (r: Step)
    requires Sane(a)
    ensures Sane(r.app)
    ensures e.Mouse? ==> r.failure.None? && r.app.images == a.images && r.app.nav.loadedIdx == a.nav.loadedIdx
  {
    match e
    case Mouse(m) => Step(a.(nav := HandleMouse(a.nav, m)), None)
    case Annotate(x, y, l) => Step(Click(a, x, y, l), None)
    case NextPressed => Next(a)
  }

  /** Any sequence of events, failing ones included, keeps the level in
      {0.1, 0.4, ..., 3.1}, so it is never zero and annotation never divides by
      zero. */
  function Run(a: App, es: seq<UiEvent>): (r: App)
    requires Sane(a)
    ensures Sane(r) && OnZoomGrid(r.nav.zoom) && 0.1 <= r.nav.zoom <= 3.1
    decreases |es|
  {
    if |es| == 0 then
      OnZoomGridBounds(a.nav.zoom);
      a
    else Run(Handle(a, es[0]).app, es[1..])
  }

  /** Two press-release drags through the event handler move the pan by the sum
      of their displacements, as in the newer navigator. */
  lemma DragsAccumulate(a: App, d1: Pan.Drag, d2: Pan.Drag)
    requires Sane(a)
    ensures var es := [Mouse(Navigator.Press(d1.fromX, d1.fromY)), Mouse(Navigator.Release(d1.toX, d1.toY)),
                       Mouse(Navigator.Press(d2.fromX, d2.fromY)), Mouse(Navigator.Release(d2.toX, d2.toY))];
      var r := Run(a, es);
      && r.nav.pan.accumX == a.nav.pan.accumX + (d1.toX - d1.fromX) + (d2.toX - d2.fromX)
      && r.nav.pan.accumY == a.nav.pan.accumY + (d1.toY - d1.fromY) + (d2.toY - d2.fromY)
  {
    var es := [Mouse(Navigator.Press(d1.fromX, d1.fromY)), Mouse(Navigator.Release(d1.toX, d1.toY)),
               Mouse(Navigator.Press(d2.fromX, d2.fromY)), Mouse(Navigator.Release(d2.toX, d2.toY))];
    var a1 := Handle(a, es[0]).app;
    var a2 := Handle(a1, es[1]).app;
    var a3 := Handle(a2, es[2]).app;
    var a4 := Handle(a3, es[3]).app;
    assert Run(a, es) == Run(a1, es[1..]);
    assert Run(a1, es[1..]) == Run(a2, es[2..]);
    assert Run(a2, es[2..]) == Run(a3, es[3..]);
    assert Run(a3, es[3..]) == Run(a4, []);
  }
}

=== FILE: legacyimageset.dfy ===
/** ImagesToAnnotate of main.py: the same image list, an output file whose name
    must end in .txt, and log rows that carry a 1-based camera index instead of
    the image name, with integer coordinates. */
module LegacyImagesToAnnotate {
  import opened Results
  import opened PyNum
  import opened PyStr
  import opened ImageFiles
  import opened ImageCatalog

  datatype Point = Point(x: int, y: int, pointLabel: string)

  datatype LogLine =
    | Header
    | Record(camIdx: int, pointLabel: string, x: int, y: int)

  const HeaderText: string := "cam_idx point_id x y\n"
  const DefaultOutputName: string := "points2D.txt"

  /** The text written for a log line: the header, or a row of camera index,
      label and coordinates separated by single spaces. The label is written as
      typed, so the text is one line of the file exactly when the label holds no
      line break. */
  function LineText(l: LogLine): (t: string)
    ensures 0 < |t| && t[|t| - 1] == '\n'
    ensures OneLine(t) <==> (l.Header? || NoLineBreak(l.pointLabel))
  {
    match l
    case Header =>
      assert HeaderText[|HeaderText| - 1] == '\n';
      HeaderText
    case Record(c, lbl, x, y) =>
      var t := IntText(c) + " " + lbl + " " + IntText(x) + " " + IntText(y) + "\n";
      RowLineBreaks(IntText(c), lbl, IntText(x), IntText(y));
      t
  }

  /** A row's line breaks before its final '\n' are exactly those of its label. */
  lemma RowLineBreaks(c: string, lbl: string, x: string, y: string)
    requires NoLineBreak(c) && NoLineBreak(x) && NoLineBreak(y)
    ensures var t := c + " " + lbl + " " + x + " " + y + "\n";
      OneLine(t) <==> NoLineBreak(lbl)
  {
    var t := c + " " + lbl + " " + x + " " + y + "\n";
    var off := |c| + 1;
    assert t[|t| - 1] == '\n';
    forall i | 0 <= i < |lbl| ensures t[off + i] == lbl[i] {
    }
    if NoLineBreak(lbl) {
      forall i | 0 <= i < |t| - 1 ensures !IsLineBreak(t[i]) {
        if i < |c| {
          assert t[i] == c[i];
        } else if off <= i < off + |lbl| {
          assert t[i] == lbl[i - off];
        } else if off + |lbl| + 1 <= i < off + |lbl| + 1 + |x| {
          assert t[i] == x[i - (off + |lbl| + 1)];
        } else if off + |lbl| + 2 + |x| <= i < |t| - 1 {
          assert t[i] == y[i - (off + |lbl| + 2 + |x|)];
        }
      }
    } else {
      var i :| 0 <= i < |lbl| && IsLineBreak(lbl[i]);
      assert t[off + i] == lbl[i];
    }
  }

  /** A label typed with a line break spreads one logged point over two lines of
      the file: the row for label "a\nb" is not one line. */
  lemma LabelWithNewlineBreaksRow()
    ensures !OneLine(LineText(Record(1, "a\nb", 2, 3)))
  {
    assert IsLineBreak("a\nb"[1]);
  }

  /** The output file, entry by entry. An entry is written as exactly one line of
      the file, as a reader iterating it sees it, exactly when it is the header or
      its label holds no line break. */
  function LogText(log: seq<LogLine>): (lines: seq<string>)
    ensures |lines| == |log|
    ensures forall k :: 0 <= k < |log| ==> lines[k] == LineText(log[k])
    ensures forall k :: 0 <= k < |log| ==> (OneLine(lines[k]) <==> (log[k].Header? || NoLineBreak(log[k].pointLabel)))
  {
    seq(|log|, k requires 0 <= k < |log| => LineText(log[k]))
  }

  datatype ImageSet = ImageSet(catalog: Catalog<Point>, log: seq<LogLine>, createdOutDir: bool)

  /** `output_file or Path("./points2D.txt")`, reduced to the file name. */
  function OutputName(outputName: Option<string>): string {
    match outputName
    case Some(n) => n
    case None => DefaultOutputName
  }

  /** _setup_output_file: the .txt check comes before any look at the file system;
      then a missing parent directory is created, and an existing file in an
      existing directory raises. The result tells whether the directory was
      created. */
  function SetupOutputFile(outputName: Option<string>, parentExists: bool, fileExists: bool): (r: Result<bool>)
    ensures Suffix(OutputName(outputName)) != ".txt" ==> r == Err(NotTxtFile)
    ensures Suffix(OutputName(outputName)) == ".txt" ==>
      (r.Err? <==> parentExists && fileExists) && (r.Err? ==> r.error == OutputFileExists)
    ensures r.Ok? ==> r.value == !parentExists
  {
    if Suffix(OutputName(outputName)) != ".txt" then Err(NotTxtFile)
    else if !parentExists then Ok(true)
    else if fileExists then Err(OutputFileExists)
    else Ok(false)
  }

  /** SavePoint when the stored index is a plain non-negative position: that
      position's list grows by the point and no other list changes. */
  lemma SavePointAtIndex(s: ImageSet, p: Point)
    requires Loaded(s.catalog) && s.catalog.lastLoaded.value >= 0
    ensures var i := s.catalog.lastLoaded.value;
      && i < |s.catalog.points| == |SavePoint(s, p).catalog.points|
      && SavePoint(s, p).catalog.points[i] == s.catalog.points[i] + [p]
      && forall k :: 0 <= k < |s.catalog.points| && k != i ==> SavePoint(s, p).catalog.points[k] == s.catalog.points[k]
  {
  }

  /** The default output name passes the .txt check, and e.g. "points2D.csv" or
      ".txt" (a hidden file with no suffix) do not. */
  lemma TxtCheckExamples()
    ensures Suffix(DefaultOutputName) == ".txt"
    ensures Suffix("points2D.csv") != ".txt"
    ensures Suffix(".txt") != ".txt"
  {
    SuffixIs(DefaultOutputName, ".txt");
    SuffixIs("points2D.csv", ".txt");
    SuffixIs(".txt", ".txt");
  }

  /** The constructor: image list (which raises when empty), then the output file. */
  function Create(listing: seq<string>, outputName: Option<string>, parentExists: bool, fileExists: bool): (r: Result<ImageSet>)
    ensures (forall n :: n in listing ==> !IsImageName(n)) ==> r == Err(NoImageFiles)
    ensures (exists n :: n in listing && IsImageName(n)) ==>
      (r.Err? <==> SetupOutputFile(outputName, parentExists, fileExists).Err?)
    ensures (exists n :: n in listing && IsImageName(n)) && r.Err? ==>
      r == Err(SetupOutputFile(outputName, parentExists, fileExists).error)
    ensures r.Ok? ==> ImageCatalog.Valid(r.value.catalog) && r.value.catalog.paths == ListImages(listing)
    ensures r.Ok? ==> r.value.catalog.lastLoaded == None
    ensures r.Ok? ==> forall k :: 0 <= k < |r.value.catalog.points| ==> r.value.catalog.points[k] == []
    ensures r.Ok? ==> r.value.log == [Header] && r.value.createdOutDir == !parentExists
  {
    match Build<Point>(listing)
    case Err(e) => Err(e)
    case Ok(c) =>
      match SetupOutputFile(outputName, parentExists, fileExists)
      case Err(e) => Err(e)
      case Ok(created) => Ok(ImageSet(c, [Header], created))
  }

  function LoadImgFromIdx(s: ImageSet, idx: int): (r: Result<ImageSet>)
    ensures r.Ok? <==> -|s.catalog.paths| <= idx < |s.catalog.paths|
    ensures idx >= |s.catalog.paths| ==> r == Err(ImageIndexOutOfBounds(idx))
    ensures r.Ok? ==> r.value == s.(catalog := s.catalog.(lastLoaded := Some(idx)))
  {
    match ImageCatalog.LoadImgFromIdx(s.catalog, idx)
    case Err(e) => Err(e)
    case Ok(c) => Ok(s.(catalog := c))
  }

  /** save_point: the point joins the loaded image's list only, and one row is
      logged whose camera index is the stored index plus one; for a non-negative
      index that is the image's 1-based position. */
  function SavePoint(s: ImageSet, p: Point): (r: ImageSet)
    requires Loaded(s.catalog)
    ensures Loaded(r.catalog) && r.catalog.paths == s.catalog.paths
    ensures r.catalog.lastLoaded == s.catalog.lastLoaded && r.createdOutDir == s.createdOutDir
    ensures r.catalog.points[Slot(s.catalog)] == s.catalog.points[Slot(s.catalog)] + [p]
    ensures forall k :: 0 <= k < |s.catalog.points| && k != Slot(s.catalog) ==>
      r.catalog.points[k] == s.catalog.points[k]
    ensures |r.log| == |s.log| + 1 && r.log[..|s.log|] == s.log
    ensures var rec := r.log[|s.log|];
      rec.Record? && rec.pointLabel == p.pointLabel && rec.x == p.x && rec.y == p.y
    ensures s.catalog.lastLoaded.value >= 0 ==> r.log[|s.log|].camIdx == Slot(s.catalog) + 1
  {
    var rec := Record(s.catalog.lastLoaded.value + 1, p.pointLabel, p.x, p.y);
    assert (s.log + [rec])[..|s.log|] == s.log;
    ImageSet(Append(s.catalog, p), s.log + [rec], s.createdOutDir)
  }
}

=== FILE: navigator.dfy ===
/** ImageNavigator and ImageAnnotator of src/utils.py: pan and zoom state, the
    conversions between screen, resized and original pixels, zoom with debounce
    and re-centring, the reset on loading an image, and the annotated point. */
module Navigator {
  import opened Results
  import opened PyNum
  import Pan
  import opened ImagesToAnnotate
  import ImageCatalog

  const ZoomStep: real := 0.5
  const ZoomOutAbove: real := 0.6     // zoom out only while the level is above this
  const ZoomInBelow: real := 5.0      // zoom in only while the level is below this
  const ZoomDebounce: real := 0.1     // seconds; a closer scroll event is ignored
  const ZoomInButton: int := 4        // Tk <Button-4>
  const ZoomOutButton: int := 5       // Tk <Button-5>

  /** The mutable fields of ImageNavigator; `pan.accumX/Y` is where the image's
      top-left corner sits on screen. */
  datatype Navigator = Navigator(pan: Pan.PanState, zoom: real, lastZoomTs: real, loadedIdx: int)

  /** _convert_to_original_pixel_coords, one axis. */
  function ToOriginal(v: real, zoom: real): (o: real)
    requires zoom != 0.0
    ensures o * zoom == v
  {
    v / zoom
  }

  /** _convert_to_resized_pixel_coords, one axis. */
  function ToResized(o: real, zoom: real): (v: real)
    ensures zoom != 0.0 ==> v / zoom == o
  {
    o * zoom
  }

  /** The two conversions undo each other at any non-zero zoom. */
  lemma ConversionsInverse(v: real, zoom: real)
    requires zoom != 0.0
    ensures ToOriginal(ToResized(v, zoom), zoom) == v
    ensures ToResized(ToOriginal(v, zoom), zoom) == v
  {
  }

  /** Screen coordinate of an original-image coordinate under the pan counter
      `accum`, which is where it is displayed while the canvas scroll origin
      equals that counter. */
  function ScreenOf(o: real, zoom: real, accum: int): real {
    accum as real + ToResized(o, zoom)
  }

  /** The level rule both tools share: Button-5 steps down while the level is
      above `outAbove`, Button-4 steps up while it is below `inBelow`, and nothing
      changes at a bound or for any other button. */
  function StepLevel(z: real, button: int, step: real, outAbove: real, inBelow: real): real {
    if button == ZoomOutButton then (if z > outAbove then z - step else z)
    else if button == ZoomInButton then (if z < inBelow then z + step else z)
    else z
  }

  /** The level one scroll event leads to: one step down while above 0.6, one step
      up while below 5.0. */
  function ZoomLevelAfter(z: real, button: int): real {
    StepLevel(z, button, ZoomStep, ZoomOutAbove, ZoomInBelow)
  }

  /** Where re-centring leaves the original coordinate `o`: `int()` of
      canvas/2 - resized(o) truncates toward zero, so `o` lands within one pixel of
      the canvas centre, on the side of the centre that truncation rounds to. */
  predicate CentredByTrunc(accum: int, o: real, zoom: real, canvas: int) {
    var c := canvas as real / 2.0;
    var s := ScreenOf(o, zoom, accum);
    && (c - ToResized(o, zoom) >= 0.0 ==> c - 1.0 < s <= c)
    && (c - ToResized(o, zoom) < 0.0 ==> c <= s < c + 1.0)
  }

  /** zoom, followed by update_img_on_canvas(is_zooming=True, ...): unless the
      event falls within the debounce window, step the level and move the
      original pixel that was under the cursor to the canvas centre. The clock is
      read twice: `now` for the debounce test, `doneAt` after the redraw, and the
      later reading is the one kept, so the window runs from the end of the redraw. */
  function Zoom(n: Navigator, button: int, x: int, y: int, now: real, doneAt: real, canvasW: int, canvasH: int): (r: Navigator)
    requires n.zoom != 0.0
    ensures now - n.lastZoomTs <= ZoomDebounce ==> r == n
    ensures now <= doneAt ==> (r.lastZoomTs == n.lastZoomTs <==> now - n.lastZoomTs <= ZoomDebounce)
    ensures now - n.lastZoomTs > ZoomDebounce ==>
      && r.lastZoomTs == doneAt
      && r.zoom == ZoomLevelAfter(n.zoom, button)
      && r.loadedIdx == n.loadedIdx
      && r.pan.dragging == n.pan.dragging && r.pan.startX == n.pan.startX && r.pan.startY == n.pan.startY
      && CentredByTrunc(r.pan.accumX, ToOriginal((x - n.pan.accumX) as real, n.zoom), r.zoom, canvasW)
      && CentredByTrunc(r.pan.accumY, ToOriginal((y - n.pan.accumY) as real, n.zoom), r.zoom, canvasH)
  {
    if now - n.lastZoomTs > ZoomDebounce then
      var ox := ToOriginal((x - n.pan.accumX) as real, n.zoom);
      var oy := ToOriginal((y - n.pan.accumY) as real, n.zoom);
      var z := ZoomLevelAfter(n.zoom, button);
      var topLeftX := Trunc(canvasW as real / 2.0 - ToResized(ox, z));
      var topLeftY := Trunc(canvasH as real / 2.0 - ToResized(oy, z));
      n.(zoom := z, pan := n.pan.(accumX := topLeftX, accumY := topLeftY), lastZoomTs := doneAt)
    else n
  }

  /** Re-centring puts the pixel that was under the cursor within one screen
      pixel of the canvas centre, even when the level did not change. */
  lemma ZoomCentresCursorPixel(n: Navigator, button: int, x: int, y: int, now: real, doneAt: real, canvasW: int, canvasH: int)
    requires n.zoom != 0.0
    requires now - n.lastZoomTs > ZoomDebounce
    ensures var r := Zoom(n, button, x, y, now, doneAt, canvasW, canvasH);
      && -1.0 < ScreenOf(ToOriginal((x - n.pan.accumX) as real, n.zoom), r.zoom, r.pan.accumX) - canvasW as real / 2.0 < 1.0
      && -1.0 < ScreenOf(ToOriginal((y - n.pan.accumY) as real, n.zoom), r.zoom, r.pan.accumY) - canvasH as real / 2.0 < 1.0
  {
  }

  /** The pixel under the cursor is not kept under the cursor: zooming in at
      (100, 100) from level 1.0 on an 800x600 canvas puts that pixel at (400, 300),
      and the cursor now points at original pixel (-100, -100). */
  lemma ZoomDoesNotKeepPixelUnderCursor()
    ensures var n := Navigator(Pan.Initial, 1.0, 0.0, 0);
      var r := Zoom(n, ZoomInButton, 100, 100, 1.0, 1.0, 800, 600);
      && r.zoom == 1.5 && r.pan.accumX == 250 && r.pan.accumY == 150
      && ScreenOf(100.0, r.zoom, r.pan.accumX) == 400.0
      && ToOriginal((100 - r.pan.accumX) as real, r.zoom) == -100.0
  {
  }

  /** A processed zoom event at the upper bound leaves the level alone but still
      re-centres the pan. */
  lemma ZoomAtBoundStillRecentres()
    ensures var n := Navigator(Pan.Initial, 5.0, 0.0, 0);
      var r := Zoom(n, ZoomInButton, 100, 100, 1.0, 1.0, 800, 600);
      r.zoom == 5.0 && r.pan.accumX == 300 && r.pan.accumY == 200
  {
  }

  /** The debounce window starts when the redraw ends: a first scroll at 1.0 s
      whose redraw lasts until 1.5 s makes a second scroll at 1.55 s count as too
      close, although it comes 0.55 s after the first. */
  lemma SlowRedrawExtendsDebounce()
    ensures var n := Navigator(Pan.Initial, 1.0, 0.0, 0);
      var once := Zoom(n, ZoomInButton, 100, 100, 1.0, 1.5, 800, 600);
      && once.zoom == 1.5
      && Zoom(once, ZoomInButton, 100, 100, 1.55, 1.55, 800, 600) == once
  {
  }

  /** The levels reachable from 1.0: 0.5, 1.0, ..., 5.0. */
  function Level(k: int): real {
    k as real * ZoomStep
  }

  predicate OnZoomGrid(z: real) {
    exists k :: 1 <= k <= 10 && z == Level(k)
  }

  lemma OnZoomGridBounds(z: real)
    requires OnZoomGrid(z)
    ensures 0.5 <= z <= 5.0
  {
  }

  /** A scroll event keeps the level on the grid: it steps down only from above
      0.6 and up only from below 5.0. */
  lemma ZoomLevelStaysOnGrid(z: real, button: int)
    requires OnZoomGrid(z)
    ensures OnZoomGrid(ZoomLevelAfter(z, button))
  {
    var k :| 1 <= k <= 10 && z == Level(k);
    var z2 := ZoomLevelAfter(z, button);
    if z2 == z - ZoomStep {
      assert z2 == Level(k - 1);
    } else if z2 == z + ZoomStep {
      assert z2 == Level(k + 1);
    }
  }

  /** The reset in load_new_img: level 1.0 and pan counter (0, 0); the drag flag
      and drag start are left as they were. The canvas scroll origin is not
      reset, since the redraw does not call scan_dragto. */
  function ResetPanAndZoom(n: Navigator, idx: int): (r: Navigator)
    ensures r.loadedIdx == idx && r.zoom == 1.0 && r.pan.accumX == 0 && r.pan.accumY == 0
    ensures r.pan.dragging == n.pan.dragging && r.pan.startX == n.pan.startX && r.pan.startY == n.pan.startY
    ensures r.lastZoomTs == n.lastZoomTs
  {
    n.(loadedIdx := idx, zoom := 1.0, pan := n.pan.(accumX := 0, accumY := 0))
  }

  /** Navigator and image set after load_new_img, and the exception it raised. */
  datatype Loaded = Loaded(nav: Navigator, images: ImageSet, failure: Option<Error>)

  /** load_new_img: the navigator records the index first, then asks the image set
      to load it; only a successful load resets the level and the pan counter. */
  function LoadNewImg(n: Navigator, s: ImageSet, idx: int): (r: Loaded)
    ensures r.nav.loadedIdx == idx
    ensures r.failure.None? <==> -|s.catalog.paths| <= idx < |s.catalog.paths|
    ensures idx >= |s.catalog.paths| ==> r.failure == Some(ImageIndexOutOfBounds(idx))
    ensures r.failure.Some? ==> r.images == s && r.nav == n.(loadedIdx := idx)
    ensures r.failure.None? ==> r.nav == ResetPanAndZoom(n, idx)
    ensures r.failure.None? ==> r.images == s.(catalog := s.catalog.(lastLoaded := Some(idx)))
  {
    match ImagesToAnnotate.LoadImgFromIdx(s, idx)
    case Err(e) => Loaded(n.(loadedIdx := idx), s, Some(e))
    case Ok(s2) => Loaded(ResetPanAndZoom(n, idx), s2, None)
  }

  /** The point annotate_point records: (event - pan) / zoom, unrounded. Under the
      same pan counter and zoom it maps back exactly to the click. */
  function AnnotatedAt(n: Navigator, x: int, y: int, pointLabel: string): (p: AnnotatedPoint)
    requires n.zoom != 0.0
    ensures p.pointLabel == pointLabel
    ensures ScreenOf(p.x, n.zoom, n.pan.accumX) == x as real
    ensures ScreenOf(p.y, n.zoom, n.pan.accumY) == y as real
  {
    AnnotatedPoint(ToOriginal((x - n.pan.accumX) as real, n.zoom), ToOriginal((y - n.pan.accumY) as real, n.zoom), pointLabel)
  }

  /** The pixels (x0 .. x0+n-1, y). */
  function RowPixels(x0: int, y: int, n: nat): (s: set<(int, int)>)
    ensures |s| == n
    ensures forall q :: q in s <==> q.1 == y && x0 <= q.0 < x0 + n
    decreases n
  {
    if n == 0 then {} else RowPixels(x0, y, n - 1) + {(x0 + n - 1, y)}
  }

  /** The pixels (x, y0 .. y0+n-1). */
  function ColumnPixels(x: int, y0: int, n: nat): (s: set<(int, int)>)
    ensures |s| == n
    ensures forall q :: q in s <==> q.0 == x && y0 <= q.1 < y0 + n
    decreases n
  {
    if n == 0 then {} else ColumnPixels(x, y0, n - 1) + {(x, y0 + n - 1)}
  }

  /** The pixel writes of draw_point_on_image around (cx, cy), in order: ten along
      the row, then ten along the column. */
  function MarkerWrites(cx: int, cy: int): (w: seq<(int, int)>)
    ensures |w| == 20
    ensures forall k :: 0 <= k < 10 ==> w[k] == (cx - 5 + k, cy)
    ensures forall k :: 10 <= k < 20 ==> w[k] == (cx, cy - 15 + k)
  {
    seq(10, k => (cx - 5 + k, cy)) + seq(10, k => (cx, cy - 5 + k))
  }

  lemma DisjointUnionSize(a: set<(int, int)>, b: set<(int, int)>)
    requires forall q :: q in a ==> q !in b
    ensures |a + b| == |a| + |b|
  {
    assert a * b == {};
  }

  /** The set of pixels the marker turns red: the row cx-5 .. cx+4 and the column
      cy-5 .. cy+4 through (cx, cy). */
  function MarkerPixels(cx: int, cy: int): (s: set<(int, int)>)
    ensures forall q :: q in s <==>
      (q.1 == cy && cx - 5 <= q.0 < cx + 5) || (q.0 == cx && cy - 5 <= q.1 < cy + 5)
    ensures |s| == 19
  {
    var row := RowPixels(cx - 5, cy, 10);
    var above := ColumnPixels(cx, cy - 5, 5);
    var below := ColumnPixels(cx, cy + 1, 4);
    DisjointUnionSize(row, above);
    DisjointUnionSize(row + above, below);
    row + above + below
  }

  lemma MarkerPixelsWritten(cx: int, cy: int, q: (int, int))
    requires q in MarkerPixels(cx, cy)
    ensures q in MarkerWrites(cx, cy)
  {
    var w := MarkerWrites(cx, cy);
    if q.1 == cy && cx - 5 <= q.0 < cx + 5 {
      assert w[q.0 - cx + 5] == q;
    } else {
      assert w[q.1 - cy + 15] == q;
    }
  }

  lemma WrittenMarkerPixel(cx: int, cy: int, k: int)
    requires 0 <= k < 20
    ensures MarkerWrites(cx, cy)[k] in MarkerPixels(cx, cy)
  {
  }

  lemma AllMarkerPixelsWritten(cx: int, cy: int)
    ensures forall q :: q in MarkerPixels(cx, cy) ==> q in MarkerWrites(cx, cy)
  {
    forall q | q in MarkerPixels(cx, cy) ensures q in MarkerWrites(cx, cy) {
      MarkerPixelsWritten(cx, cy, q);
    }
  }

  lemma AllWritesOnMarker(cx: int, cy: int)
    ensures forall q :: q in MarkerWrites(cx, cy) ==> q in MarkerPixels(cx, cy)
  {
    var w := MarkerWrites(cx, cy);
    forall q | q in w ensures q in MarkerPixels(cx, cy) {
      var k :| 0 <= k < |w| && w[k] == q;
      WrittenMarkerPixel(cx, cy, k);
    }
  }

  /** The twenty writes hit exactly the nineteen marker pixels: (cx, cy) is written
      twice. */
  lemma MarkerWritesHitMarkerPixels(cx: int, cy: int)
    ensures forall q :: q in MarkerWrites(cx, cy) <==> q in MarkerPixels(cx, cy)
    ensures |MarkerWrites(cx, cy)| == |MarkerPixels(cx, cy)| + 1
  {
    AllMarkerPixelsWritten(cx, cy);
    AllWritesOnMarker(cx, cy);
  }

  /** An annotated image written by save_annotated_img: its file name and the
      marker pixels drawn on it since it was loaded. */
  datatype SavedImage = SavedImage(name: string, marked: set<(int, int)>)

  /** The marker drawn for an annotated point, at int() of its coordinates. */
  function MarkerOf(p: AnnotatedPoint): set<(int, int)> {
    MarkerPixels(Trunc(p.x), Trunc(p.y))
  }

  /** The mouse events ImageNavigator binds. */
  datatype MouseEvent =
    | Press(x: int, y: int)
    | Motion(x: int, y: int)
    | Release(x: int, y: int)
    | Scroll(button: int, x: int, y: int, now: real, doneAt: real, canvasW: int, canvasH: int)

  function Handle(n: Navigator, e: MouseEvent): (r: Navigator)
    requires OnZoomGrid(n.zoom)
    ensures OnZoomGrid(r.zoom) && r.loadedIdx == n.loadedIdx
    ensures !e.Scroll? ==> r.zoom == n.zoom && r.lastZoomTs == n.lastZoomTs
  {
    match e
    case Press(x, y) => n.(pan := Pan.StartDrag(n.pan, x, y))
    case Motion(_, _) => n
    case Release(x, y) => n.(pan := Pan.StopDrag(n.pan, x, y))
    case Scroll(b, x, y, now, doneAt, w, h) =>
      ZoomLevelStaysOnGrid(n.zoom, b);
      Zoom(n, b, x, y, now, doneAt, w, h)
  }

  /** Any sequence of mouse events from a level on the grid, such as the initial
      1.0, keeps the level in {0.5, 1.0, ..., 5.0}. */
  function Run(n: Navigator, es: seq<MouseEvent>): (r: Navigator)
    requires OnZoomGrid(n.zoom)
    ensures OnZoomGrid(r.zoom) && 0.5 <= r.zoom <= 5.0
    ensures r.loadedIdx == n.loadedIdx
    decreases |es|
  {
    if |es| == 0 then
      OnZoomGridBounds(n.zoom);
      n
    else Run(Handle(n, es[0]), es[1..])
  }
}

=== FILE: pan.dfy ===
/** Drag-to-pan, identical in both navigator classes: a press records where the
    drag started, motion previews the pan without committing it, and release adds
    the drag's displacement to the accumulated pan (screen pixels). */
module Pan {
  import opened Results

  datatype PanState = PanState(dragging: bool, startX: int, startY: int, accumX: int, accumY: int)

  const Initial: PanState := PanState(false, 0, 0, 0, 0)

  /** start_drag. */
  function StartDrag(p: PanState, x: int, y: int): (q: PanState)
    ensures q.dragging && q.startX == x && q.startY == y
    ensures q.accumX == p.accumX && q.accumY == p.accumY
  {
    p.(dragging := true, startX := x, startY := y)
  }

  /** stop_drag: commits the displacement since the last press, whether or not a
      drag is in progress, and clears the flag. */
  function StopDrag(p: PanState, x: int, y: int): (q: PanState)
    ensures !q.dragging && q.startX == p.startX && q.startY == p.startY
    ensures q.accumX - p.accumX == x - p.startX
    ensures q.accumY - p.accumY == y - p.startY
  {
    p.(dragging := false, accumX := p.accumX + x - p.startX, accumY := p.accumY + y - p.startY)
  }

  /** execute_drag: the position the canvas is dragged to, None when no drag is in
      progress. The state itself never changes on motion. */
  function DragTarget(p: PanState, x: int, y: int): (t: Option<(int, int)>)
    ensures t.None? <==> !p.dragging
    ensures t.Some? ==> t.value.0 - p.accumX == x - p.startX && t.value.1 - p.accumY == y - p.startY
  {
    if p.dragging then Some((x - p.startX + p.accumX, y - p.startY + p.accumY)) else None
  }

  /** What motion shows is what release at the same point commits. */
  lemma MotionPreviewsRelease(p: PanState, x: int, y: int)
    requires p.dragging
    ensures DragTarget(p, x, y) == Some((StopDrag(p, x, y).accumX, StopDrag(p, x, y).accumY))
  {
  }

  /** One press-release gesture, from the press point to the release point. */
  datatype Drag = Drag(fromX: int, fromY: int, toX: int, toY: int)

  function ApplyDrag(p: PanState, d: Drag): PanState {
    StopDrag(StartDrag(p, d.fromX, d.fromY), d.toX, d.toY)
  }

  function ApplyDrags(p: PanState, ds: seq<Drag>): PanState
    decreases |ds|
  {
    if |ds| == 0 then p else ApplyDrags(ApplyDrag(p, ds[0]), ds[1..])
  }

  function SumDx(ds: seq<Drag>): int
    decreases |ds|
  {
    if |ds| == 0 then 0 else ds[0].toX - ds[0].fromX + SumDx(ds[1..])
  }

  function SumDy(ds: seq<Drag>): int
    decreases |ds|
  {
    if |ds| == 0 then 0 else ds[0].toY - ds[0].fromY + SumDy(ds[1..])
  }

  /** Successive drags commit the sum of their displacements to the pan. */
  lemma {:induction false} DragsAccumulate(p: PanState, ds: seq<Drag>)
    ensures ApplyDrags(p, ds).accumX == p.accumX + SumDx(ds)
    ensures ApplyDrags(p, ds).accumY == p.accumY + SumDy(ds)
    ensures |ds| > 0 ==> !ApplyDrags(p, ds).dragging
    decreases |ds|
  {
    if |ds| > 0 {
      DragsAccumulate(ApplyDrag(p, ds[0]), ds[1..]);
    }
  }

  /** Two drags (dx1, dy1) then (dx2, dy2) leave the pan moved by the sum. */
  lemma TwoDragsAccumulate(p: PanState, d1: Drag, d2: Drag)
    ensures ApplyDrag(ApplyDrag(p, d1), d2).accumX == p.accumX + (d1.toX - d1.fromX) + (d2.toX - d2.fromX)
    ensures ApplyDrag(ApplyDrag(p, d1), d2).accumY == p.accumY + (d1.toY - d1.fromY) + (d2.toY - d2.fromY)
  {
  }
}

=== FILE: pynum.dfy ===
/** The few pieces of Python number semantics the tool relies on. */
module PyNum {
  import opened Results

  /** Python's int() applied to a float: truncation toward zero, not floor. */
  function Trunc(r: real): (t: int)
    ensures 0.0 <= r ==> t as real <= r < t as real + 1.0
    ensures r < 0.0 ==> t as real - 1.0 < r <= t as real
  {
    if r >= 0.0 then r.Floor else -((-r).Floor)
  }

  /** Truncation and floor part ways on negative non-integers. */
  lemma TruncIsNotFloor()
    ensures Trunc(-0.5) == 0 && (-0.5).Floor == -1
  {
  }

  /** Python list indexing `xs[i]` for `len(xs) == n`: the slot it reaches, None for IndexError. */
  function ListIndex(i: int, n: nat): (r: Option<nat>)
    ensures r.Some? <==> -(n as int) <= i < n
    ensures r.Some? ==> r.value < n && (r.value == i || r.value == i + n)
    ensures 0 <= i < n ==> r == Some(i)
  {
    if 0 <= i < n then Some(i)
    else if -(n as int) <= i < 0 then Some(i + n)
    else None
  }

  predicate IsDigit(c: char) {
    '0' <= c <= '9'
  }

  predicate AllDigits(s: string) {
    forall i :: 0 <= i < |s| ==> IsDigit(s[i])
  }

  function DigitChar(d: nat): (c: char)
    requires d < 10
    ensures IsDigit(c)
  {
    "0123456789"[d]
  }

  function DigitValue(c: char): (d: nat)
    requires IsDigit(c)
    ensures d < 10 && DigitChar(d) == c
  {
    c as int - '0' as int
  }

  /** Decimal text of a natural number, as str() writes it: no sign, no leading zero. */
  function NatText(n: nat): (s: string)
    ensures 0 < |s| && AllDigits(s)
    ensures s[0] == '0' ==> n == 0
    decreases n
  {
    if n < 10 then [DigitChar(n)] else NatText(n / 10) + [DigitChar(n % 10)]
  }

  /** str(n) for a Python int. */
  function IntText(n: int): (s: string)
    ensures 0 < |s|
    ensures s[0] == '-' <==> n < 0
    ensures forall i :: 0 <= i < |s| ==> IsDigit(s[i]) || (i == 0 && s[i] == '-')
  {
    if n < 0 then "-" + NatText(-n) else NatText(n)
  }

  /** The value of a run of decimal digits, leading zeros allowed. */
  function DigitsValue(s: string): nat
    requires AllDigits(s)
    decreases |s|
  {
    if |s| == 0 then 0 else DigitsValue(s[..|s| - 1]) * 10 + DigitValue(s[|s| - 1])
  }

  /** Python's int() on a token that carries no surrounding whitespace: an optional
      sign followed by one or more ASCII digits; None stands for ValueError. */
  function ParseInt(s: string): (r: Option<int>)
    ensures r.Some? <==>
      (0 < |s| && AllDigits(s)) || (1 < |s| && (s[0] == '-' || s[0] == '+') && AllDigits(s[1..]))
    ensures r.Some? && AllDigits(s) ==> r.value >= 0
  {
    if 0 < |s| && (s[0] == '-' || s[0] == '+') then
      if 1 < |s| && AllDigits(s[1..]) then
        Some(if s[0] == '-' then -(DigitsValue(s[1..]) as int) else DigitsValue(s[1..]))
      else None
    else if 0 < |s| && AllDigits(s) then Some(DigitsValue(s))
    else None
  }

  lemma {:induction false} NatTextValue(n: nat)
    ensures DigitsValue(NatText(n)) == n
    decreases n
  {
    var s := NatText(n);
    if n >= 10 {
      NatTextValue(n / 10);
      assert s[..|s| - 1] == NatText(n / 10);
    }
  }

  /** int(str(n)) == n. */
  lemma IntTextRoundTrip(n: int)
    ensures ParseInt(IntText(n)) == Some(n)
  {
    var s := IntText(n);
    if n < 0 {
      assert s[1..] == NatText(-n);
      NatTextValue(-n);
    } else {
      NatTextValue(n);
    }
  }
}

=== FILE: pystr.dfy ===
/** Python string operations used by the tool: whitespace splitting, rfind and the
    suffix of a path name. */
module PyStr {
  import opened Results

  /** str.isspace() on one character (the ASCII controls 9-13 and 28-31, space,
      and the Unicode separators). */
  predicate IsSpace(c: char) {
    var k := c as int;
    || 9 <= k <= 13
    || 28 <= k <= 32
    || k == 0x85 || k == 0xA0 || k == 0x1680
    || 0x2000 <= k <= 0x200A
    || k == 0x2028 || k == 0x2029 || k == 0x202F || k == 0x205F || k == 0x3000
  }

  predicate AllSpace(s: string) {
    forall i :: 0 <= i < |s| ==> IsSpace(s[i])
  }

  /** The characters that end a line when a file is read in text mode with
      universal newlines: '\n', and '\r' alone or before '\n'. */
  predicate IsLineBreak(c: char) {
    c == '\n' || c == '\r'
  }

  /** Text that a reader iterating the file sees as exactly one line: it ends in
      '\n' and holds no line break before that. */
  predicate OneLine(s: string) {
    0 < |s| && s[|s| - 1] == '\n' && forall i :: 0 <= i < |s| - 1 ==> !IsLineBreak(s[i])
  }

  predicate NoLineBreak(s: string) {
    forall i :: 0 <= i < |s| ==> !IsLineBreak(s[i])
  }

  /** A field that str.split() can return: non-empty, no whitespace inside. */
  predicate IsWord(w: string) {
    0 < |w| && forall i :: 0 <= i < |w| ==> !IsSpace(w[i])
  }

  /** Length of the leading run of non-whitespace characters. */
  function WordLen(s: string): (n: nat)
    ensures n <= |s|
    ensures forall i :: 0 <= i < n ==> !IsSpace(s[i])
    ensures n < |s| ==> IsSpace(s[n])
    decreases |s|
  {
    if |s| == 0 || IsSpace(s[0]) then 0 else 1 + WordLen(s[1..])
  }

  /** str.split() with no separator: the maximal runs of non-whitespace, in order. */
  function Split(s: string): (ws: seq<string>)
    ensures forall k :: 0 <= k < |ws| ==> IsWord(ws[k])
    ensures AllSpace(s) ==> ws == []
    decreases |s|
  {
    if |s| == 0 then []
    else if IsSpace(s[0]) then Split(s[1..])
    else
      var n := WordLen(s);
      [s[..n]] + Split(s[n..])
  }

  /** " ".join(ws). */
  function JoinWords(ws: seq<string>): string {
    if |ws| == 0 then ""
    else if |ws| == 1 then ws[0]
    else ws[0] + " " + JoinWords(ws[1..])
  }

  lemma {:induction false} WordLenOfWord(w: string, rest: string)
    requires IsWord(w)
    requires |rest| == 0 || IsSpace(rest[0])
    ensures WordLen(w + rest) == |w|
    decreases |w|
  {
    if |w| > 1 {
      assert (w + rest)[1..] == w[1..] + rest;
      WordLenOfWord(w[1..], rest);
    } else {
      assert (w + rest)[1..] == rest;
    }
  }

  /** A word followed by whitespace (or nothing) is split off as the first field. */
  lemma SplitWordThen(w: string, rest: string)
    requires IsWord(w)
    requires |rest| == 0 || IsSpace(rest[0])
    ensures Split(w + rest) == [w] + Split(rest)
  {
    WordLenOfWord(w, rest);
    var s := w + rest;
    assert s[..|w|] == w;
    assert s[|w|..] == rest;
  }

  /** Splitting words joined by single spaces, plus any trailing whitespace such as
      the newline of a line read from a file, gives the words back. */
  lemma {:induction false} SplitJoinWords(ws: seq<string>, tail: string)
    requires forall k :: 0 <= k < |ws| ==> IsWord(ws[k])
    requires AllSpace(tail)
    ensures Split(JoinWords(ws) + tail) == ws
    decreases |ws|
  {
    if |ws| == 0 {
    } else if |ws| == 1 {
      SplitWordThen(ws[0], tail);
    } else {
      var after := JoinWords(ws[1..]) + tail;
      var rest := " " + after;
      assert JoinWords(ws) + tail == ws[0] + rest;
      SplitWordThen(ws[0], rest);
      assert rest[1..] == after;
      assert Split(rest) == Split(after);
      SplitJoinWords(ws[1..], tail);
    }
  }

  /** Four fields joined by single spaces, as a line of a points file. */
  lemma JoinFour(a: string, b: string, c: string, d: string)
    ensures JoinWords([a, b, c, d]) + "\n" == a + " " + b + " " + c + " " + d + "\n"
  {
    var ws := [a, b, c, d];
    assert ws[1..] == [b, c, d] && ws[1..][1..] == [c, d] && ws[1..][1..][1..] == [d];
    assert JoinWords([c, d]) == c + " " + d;
    assert JoinWords([b, c, d]) == b + " " + (c + " " + d);
    assert JoinWords(ws) == a + " " + (b + " " + (c + " " + d));
  }

  /** str.rfind(c), with None for -1. */
  function RFind(s: string, c: char): (r: Option<nat>)
    ensures r.Some? ==> r.value < |s| && s[r.value] == c
    ensures r.Some? ==> forall i :: r.value < i < |s| ==> s[i] != c
    ensures r.None? ==> forall i :: 0 <= i < |s| ==> s[i] != c
    decreases |s|
  {
    if |s| == 0 then None
    else if s[|s| - 1] == c then Some(|s| - 1)
    else RFind(s[..|s| - 1], c)
  }

  predicate EndsWith(s: string, tail: string) {
    |tail| <= |s| && s[|s| - |tail|..] == tail
  }

  /** PurePath.suffix of a file name: from the last dot on, provided that dot is
      neither the first nor the last character; "" otherwise. */
  function Suffix(name: string): (sfx: string)
    ensures sfx == "" || (2 <= |sfx| < |name| && sfx[0] == '.' && EndsWith(name, sfx) && '.' !in sfx[1..])
  {
    match RFind(name, '.')
    case Some(i) =>
      if 0 < i < |name| - 1 then
        assert forall j :: 0 <= j < |name[i..]| - 1 ==> name[i..][1..][j] == name[i + 1 + j];
        name[i..]
      else ""
    case None => ""
  }

  /** A dotted extension such as ".jpg" is the suffix of exactly the names that end
      with it and have at least one character before it. */
  lemma {:induction false} SuffixIs(name: string, ext: string)
    requires 2 <= |ext| && ext[0] == '.' && '.' !in ext[1..]
    ensures Suffix(name) == ext <==> |ext| < |name| && EndsWith(name, ext)
  {
    if |ext| < |name| && EndsWith(name, ext) {
      var i := |name| - |ext|;
      assert name[i] == '.';
      assert forall j :: i < j < |name| ==> name[j] == ext[1..][j - i - 1];
      var r := RFind(name, '.');
      assert r.Some? && r.value == i;
    }
  }
}

=== FILE: results.dfy ===
/** Option and Result wrappers, and every exception kind the annotation tool raises. */
module Results {

  datatype Option<+T> = None | Some(value: T)

  /** One constructor per kind of raise site in the modelled code. */
  datatype Error =
    | NoImageFiles                      // no file with an accepted image suffix
    | OutputFileExists                  // points2D.txt is already there
    | NotTxtFile                        // the output file name does not end in .txt
    | ImageIndexOutOfBounds(idx: int)   // load_img_from_idx with idx >= number of images
    | ListIndexError(idx: int)          // Python list indexing outside [-len, len)
    | EmptyLine(lineNo: nat)            // line[0] on a line with no fields
    | FieldCount(lineNo: nat)           // a non-comment line without exactly 4 fields
    | NotAnInt(token: string)           // int() rejects a token
    | NotAFloat(token: string)          // float() rejects a token
    | UnknownPointId(id: int)           // POINTS_COORDS has no such key
    | OutputDirExists                   // the converter's output directory pre-exists

  datatype Result<+T> = Ok(value: T) | Err(error: Error)
}

=== FILE: session.dfy ===
/** The application of src/main.py: the image set and annotator created at
    launch, the mouse bindings, the annotation click and the Next button, which
    saves the annotated image and then advances or quits. */
module Session {
  import opened Results
  import opened ImageFiles
  import opened ImageCatalog
  import opened ImagesToAnnotate
  import Navigator
  import Pan

  datatype App = App(
    images: ImageSet,
    nav: Navigator.Navigator,
    marked: set<(int, int)>,    // marker pixels drawn on the loaded image
    saved: seq<Navigator.SavedImage>,     // annotated images written, in order
    quit: bool)                 // root.quit() has been called

  /** What holds between events: the navigator's index names the image the image
      set loaded last, inside the list, and the zoom level is on its grid. */
  predicate Valid(a: App) {
    && ImageCatalog.Valid(a.images.catalog)
    && 0 <= a.nav.loadedIdx < |a.images.catalog.paths|
    && a.images.catalog.lastLoaded == Some(a.nav.loadedIdx)
    && Navigator.OnZoomGrid(a.nav.zoom)
  }

  /** launch: build the image set (which may raise), then the annotator, whose
      constructor loads image 0 at level 1.0 with no pan. */
  function Launch(listing: seq<string>, outDirExists: bool, outFileExists: bool, now: real): (r: Result<App>)
    ensures r.Err? <==> (forall n :: n in listing ==> !IsImageName(n)) || (outDirExists && outFileExists)
    ensures r.Ok? ==> Valid(r.value) && r.value.images.catalog.paths == ListImages(listing)
    ensures r.Ok? ==> r.value.nav.loadedIdx == 0 && r.value.nav.zoom == 1.0 && r.value.nav.lastZoomTs == now
    ensures r.Ok? ==> r.value.nav.pan == Pan.Initial
    ensures r.Ok? ==> r.value.images.log == [Header(HeaderColumns)]
    ensures r.Ok? ==> r.value.saved == [] && r.value.marked == {} && !r.value.quit
  {
    match Create(listing, outDirExists, outFileExists)
    case Err(e) => Err(e)
    case Ok(s) =>
      var l := Navigator.LoadNewImg(Navigator.Navigator(Pan.Initial, 1.0, now, 0), s, 0);
      match l.failure
      case Some(e) => Err(e)
      case None =>
        assert Navigator.OnZoomGrid(1.0) by { assert 1.0 == Navigator.Level(2); }
        Ok(App(l.images, l.nav, {}, [], false))
  }

  /** show_next_img_on_canvas: the current annotated image is always saved first;
      at the last image the loop quits and nothing is loaded, otherwise the next
      image is loaded with the level and the pan counter reset. */
  function Next(a: App): (r: App)
    requires Valid(a)
    ensures Valid(r)
    ensures r.saved == a.saved + [Navigator.SavedImage(a.images.catalog.paths[a.nav.loadedIdx], a.marked)]
    ensures a.nav.loadedIdx + 1 >= |a.images.catalog.paths| ==>
      r.quit && r.nav == a.nav && r.images == a.images && r.marked == a.marked
    ensures a.nav.loadedIdx + 1 < |a.images.catalog.paths| ==>
      && r.quit == a.quit
      && r.nav == Navigator.ResetPanAndZoom(a.nav, a.nav.loadedIdx + 1)
      && r.images == a.images.(catalog := a.images.catalog.(lastLoaded := Some(a.nav.loadedIdx + 1)))
      && r.marked == {}
  {
    var saved := a.saved + [Navigator.SavedImage(a.images.catalog.paths[a.nav.loadedIdx], a.marked)];
    if a.nav.loadedIdx + 1 >= |a.images.catalog.paths| then
      a.(saved := saved, quit := true)
    else
      var l := Navigator.LoadNewImg(a.nav, a.images, a.nav.loadedIdx + 1);
      match l.failure
      case Some(_) => a.(saved := saved)
      case None =>
        assert Navigator.OnZoomGrid(1.0) by { assert 1.0 == Navigator.Level(2); }
        App(l.images, l.nav, {}, saved, a.quit)
  }

  /** annotate_point: the clicked point, in original pixels, is saved for the
      loaded image and its marker is drawn; the view does not change. */
  function Click(a: App, x: int, y: int, pointLabel: string): (r: App)
    requires Valid(a)
    ensures Valid(r) && r.nav == a.nav && r.saved == a.saved && r.quit == a.quit
    ensures r.images.catalog.paths == a.images.catalog.paths
    ensures |r.images.log| == |a.images.log| + 1 && r.images.log[..|a.images.log|] == a.images.log
    ensures var rec := r.images.log[|a.images.log|];
      && rec.Record?
      && rec.imgName == a.images.catalog.paths[a.nav.loadedIdx]
      && rec.pointLabel == pointLabel
      && Navigator.ScreenOf(rec.x, a.nav.zoom, a.nav.pan.accumX) == x as real
      && Navigator.ScreenOf(rec.y, a.nav.zoom, a.nav.pan.accumY) == y as real
      && r.images.catalog.points[a.nav.loadedIdx] ==
         a.images.catalog.points[a.nav.loadedIdx] + [AnnotatedPoint(rec.x, rec.y, pointLabel)]
      && r.marked == a.marked + Navigator.MarkerOf(AnnotatedPoint(rec.x, rec.y, pointLabel))
    ensures forall k :: 0 <= k < |a.images.catalog.points| && k != a.nav.loadedIdx ==>
      r.images.catalog.points[k] == a.images.catalog.points[k]
  {
    Navigator.OnZoomGridBounds(a.nav.zoom);
    var p := Navigator.AnnotatedAt(a.nav, x, y, pointLabel);
    assert Slot(a.images.catalog) == a.nav.loadedIdx;
    var s := SavePoint(a.images, p);
    assert s.log[|a.images.log|] == Record(a.images.catalog.paths[a.nav.loadedIdx], pointLabel, p.x, p.y);
    a.(images := s, marked := a.marked + Navigator.MarkerOf(p))
  }

  /** Everything the GUI delivers to the application. */
  datatype UiEvent =
    | Mouse(e: Navigator.MouseEvent)
    | Annotate(x: int, y: int, pointLabel: string)
    | NextPressed

  function Handle(a: App, e: UiEvent): (r: App)
    requires Valid(a)
    ensures Valid(r)
  {
    match e
    case Mouse(m) => a.(nav := Navigator.Handle(a.nav, m))
    case Annotate(x, y, l) => Click(a, x, y, l)
    case NextPressed => Next(a)
  }

  /** Any sequence of events keeps the application valid: in particular the Next
      button never asks the image set for an index outside the list. */
  function Run(a: App, es: seq<UiEvent>): (r: App)
    requires Valid(a)
    ensures Valid(r)
    ensures 0 <= r.nav.loadedIdx < |r.images.catalog.paths| && Navigator.OnZoomGrid(r.nav.zoom)
    decreases |es|
  {
    if |es| == 0 then a else Run(Handle(a, es[0]), es[1..])
  }

  function PressNext(a: App, k: nat): (r: App)
    requires Valid(a)
    ensures Valid(r)
    decreases k
  {
    if k == 0 then a else PressNext(Next(a), k - 1)
  }

  function Min(a: int, b: int): int {
    if a <= b then a else b
  }

  /** After k presses of Next the loaded index is min(start + k, count - 1), one
      image has been saved per press, and the loop has quit exactly when a press
      happened on the last image. */
  lemma {:induction false} PressNextAdvances(a: App, k: nat)
    requires Valid(a)
    ensures PressNext(a, k).nav.loadedIdx == Min(a.nav.loadedIdx + k, |a.images.catalog.paths| - 1)
    ensures PressNext(a, k).quit <==> a.quit || a.nav.loadedIdx + k >= |a.images.catalog.paths|
    ensures |PressNext(a, k).saved| == |a.saved| + k
    ensures PressNext(a, k).images.catalog.paths == a.images.catalog.paths
    decreases k
  {
    if k > 0 {
      PressNextAdvances(Next(a), k - 1);
    }
  }
}
